=== FILE: README.md ===
# 5econds video diary — a Dafny model of its decision logic

5econds (shipped as VidCut) is an Expo / React Native video diary. The user
picks or records a video of up to two minutes. A thumbnail scrubber chooses
a five-second window of it. The user names and describes the clip, and the
app keeps it in a persisted diary. A second, older editor flow builds
projects with text overlays and filters and runs a simulated export.

This project models the app's pure decision logic in Dafny 4.11 as
immutable datatypes and pure functions, and proves what each decision
guarantees:

- the scrubber's mapping from scroll offset to trim window, its thumbnail
  batching and its cleanup order;
- the validators of the service layer and of the metadata schema;
- the error hierarchy;
- the two duration formatters and the quality tables;
- the two state stores;
- the small state machines of the editor, reels card, export, onboarding,
  details and save-dialog screens.

Everything the platform does is a parameter of the model rather than
behaviour:

- the thumbnail service is a function from request time to an optional uri;
- file deletion is a predicate saying which deletions succeed;
- the picker's result and the permission answer are datatypes;
- every `Date.now()` reading outside a `map` callback is its own integer
  parameter (`clockForId`, `now`, ...); the per-clip readings inside the
  `map` of `updateCroppedVideo` and `toggleFavorite` share one parameter
  `now` (see "Left out").

Effects that the source performs in order are returned as traces of
effects, so that their order can be stated: setting state, deleting files,
requesting frames and showing alerts.

JavaScript behaviour is written out explicitly in module `Js`:

- `%` keeps the sign of the dividend;
- `String(n)`, `padStart(2, "0")` and `trim()`, using the ECMA-262
  whitespace set;
- UTF-16 `.length`.

Module `Clock` reads a colon-separated label back in base 60. It is the
independent partner against which both time formatters are proved.

Files and modules:

| file | module | models |
|---|---|---|
| wrappers.dfy | Wrappers | `Option`, `Result` |
| js.dfy | Js | JavaScript primitives |
| clock.dfy | Clock | base-60 reading of labels |
| constants.dfy | AppConstants | constants/app.ts and the scrubber's constants |
| types.dfy | VideoTypes | types/video.ts, and the item built from a picked asset |
| errors.dfy | Errors | utils/errors.ts |
| scrubber.dfy | Scrubber | components/video-thumbnail-scrubber.tsx |
| video_service.dfy | VideoService | services/video-service.ts |
| metadata_schema.dfy | MetadataSchema | utils/validation.ts |
| video_utils.dfy | VideoUtils | utils/video-utils.ts |
| legacy_video_utils.dfy | LegacyVideoUtils | utils/videoUtils.ts |
| lists.dfy | Lists | the array operations the stores use |
| diary_store.dfy | DiaryStore | store/video-store.ts |
| project_store.dfy | ProjectStore | store/videoStore.ts |
| editor.dfy | Editor | app/editor.tsx |
| reels_card.dfy | ReelsCard | components/reels-video-card.tsx |
| export_screen.dfy | ExportScreen | app/export.tsx |
| onboarding.dfy | Onboarding | app/onboarding.tsx |
| details.dfy | Details | app/details.tsx |
| metadata_modal.dfy | MetadataModal | components/metadata-modal.tsx |

## Model

| member | source | states |
|---|---|---|
| Js.Rem | utils/video-utils.ts:164-165 | JavaScript's remainder: strictly inside (-n, n), equal to the mathematical remainder for a non-negative dividend, and never positive for a negative one |
| Js.NatToString | utils/video-utils.ts:168 | the decimal text of a number is non-empty, all digits, reads back as the number, and has a leading zero only for 0 itself |
| Js.IntToString | components/video-thumbnail-scrubber.tsx:324 | the text of an integer reads back as its value, with a minus sign exactly for negatives |
| Js.PadStart2 | components/video-thumbnail-scrubber.tsx:324 | padding to two places keeps the text as a suffix, adds only zeros, and gives length max(2, old length) |
| Js.TwoDigits | utils/video-utils.ts:168 | a value below 100, padded, is exactly two digits that read back as the value |
| Js.Trim | utils/validation.ts:15 | the result is an infix of the input with only whitespace before and after it, neither starts nor ends with whitespace, and is empty exactly when the input is all whitespace |
| Js.TrimIdempotent | utils/validation.ts:15 | trimming twice is trimming once |
| Js.Utf16Length | utils/validation.ts:16-18 | `.length` counts code units: between one and two per character, and exactly one each when all characters lie in the Basic Multilingual Plane |
| Clock.AppendField | components/video-thumbnail-scrubber.tsx:324 | appending ":digits" to a label multiplies its value by 60 and adds the field |
| Clock.TwoFields | components/video-thumbnail-scrubber.tsx:320-325 | an `m:ss` label with two-digit seconds reads back as 60 m + s |
| Clock.ThreeFields | utils/video-utils.ts:167-168 | an `h:mm:ss` label with two-digit fields reads back as 3600 h + 60 m + s |
| VideoTypes.ItemFromAsset | services/video-service.ts:77-85 | the stored item keeps the asset's uri and size; it takes duration 0 when the duration is missing; the id and fallback file name come from the clock; an empty file name or thumbnail is replaced |
| Errors.NewPermissionError | utils/errors.ts:47-56 | a permission error keeps its kind, and an absent or empty message becomes "<type> permission is required" |
| Errors.GetUserErrorMessage | utils/errors.ts:138-160 | any Error, of any subclass, yields its own message; a thrown non-Error yields the fixed fallback sentence |
| Errors.SubclassesAreAppErrors | utils/errors.ts:21-105 | each of the four subclasses satisfies `isAppError`, which holds exactly for errors that are not built-in ones |
| Errors.SubclassGuardsExclusive | utils/errors.ts:110-133 | no thrown value satisfies two of the four subclass guards |
| Scrubber.ClampedStart | components/video-thumbnail-scrubber.tsx:204-208 | the start is never negative; it never passes duration − trimDuration when the source holds a window; it is 0 for short sources; an in-range offset p gives p·1000/60 |
| Scrubber.UpdateTrimFromScroll | components/video-thumbnail-scrubber.tsx:202-218 | every reported window spans exactly trimDuration and starts at or after 0; it ends inside the source when the source is long enough, and otherwise is the degenerate [0, trimDuration] past the end; the three labels are start, midpoint and end |
| Scrubber.StartMonotone | components/video-thumbnail-scrubber.tsx:204-208 | scrolling further never moves the window earlier |
| Scrubber.SecondsOf | components/video-thumbnail-scrubber.tsx:160 | the number of whole seconds n satisfies 1000 n ≤ duration < 1000 n + 1000 |
| Scrubber.BatchCount | components/video-thumbnail-scrubber.tsx:163-164 | the batch count is the ceiling of n/10: ten per batch cover all n seconds with no empty batch, and there are none when n ≤ 0 |
| Scrubber.RequestPlan | components/video-thumbnail-scrubber.tsx:169-170 | the request times are exactly i·1000 for i in [0, n) |
| Scrubber.DeliveredSeconds | components/video-thumbnail-scrubber.tsx:183-187 | the seconds whose frame arrived are strictly increasing and are exactly those with a non-empty result |
| Scrubber.ThumbsAreDeliveredInOrder | components/video-thumbnail-scrubber.tsx:175-187 | the j-th stored thumbnail is the frame of the j-th successful second; failed requests leave no entry |
| Scrubber.ThumbsGrow | components/video-thumbnail-scrubber.tsx:189-191 | each published list is a prefix of every later one |
| Scrubber.CleanupEffects | components/video-thumbnail-scrubber.tsx:116-148 | cleanup empties the list before any deletion, deletes only stored files, and never requests frames or publishes |
| Scrubber.CleanupDeletesEveryFile | components/video-thumbnail-scrubber.tsx:130-141 | cleanup attempts the deletion of every stored file exactly once, in order |
| Scrubber.CleanupSwallowsFailures | components/video-thumbnail-scrubber.tsx:133-138 | what cleanup does is the same whichever deletions fail |
| Scrubber.GenerateThumbnails | components/video-thumbnail-scrubber.tsx:150-198 | generation runs cleanup before anything else; it requests exactly the plan's times; the b-th list is published right after the requests for seconds [0, min(10b+10, n)) and holds what those seconds delivered; loading is switched on first and off last |
| Scrubber.RunBatches | components/video-thumbnail-scrubber.tsx:164-191 | the batch loop requests exactly one frame per whole second in order, publishes one list per batch, each right after that batch's requests and holding what seconds [0, min(10b+10, n)) delivered, and ends with every delivered thumbnail |
| Scrubber.PublishStep | components/video-thumbnail-scrubber.tsx:164-191 | publishing right after a batch's requests keeps every publication behind exactly its own batch's requests |
| Scrubber.Enclose | components/video-thumbnail-scrubber.tsx:150-198 | the cleanup before and the loading switch after a batch run leave each publication behind its own batch's requests |
| Scrubber.CollectBatch | components/video-thumbnail-scrubber.tsx:169-187 | one batch extends the accumulated list from second `start` to second `end` |
| Scrubber.BatchStep | components/video-thumbnail-scrubber.tsx:164-192 | one more batch extends the request log to the batch's end and the publication log by one snapshot |
| Scrubber.FormatTimeFields | components/video-thumbnail-scrubber.tsx:320-325 | for a non-negative time the label is the unpadded minutes, ':', and two digits that read back as the seconds within the minute |
| Scrubber.FormatTime | components/video-thumbnail-scrubber.tsx:320-325 | every label of a non-negative time reads back in base 60 as the whole seconds it shows |
| VideoService.ValidateVideoDuration | services/video-service.ts:36-49 | rejects exactly the durations over 120000 ms, so exactly two minutes passes; the error carries the message, the uri, the duration in seconds and the limit 120 |
| VideoService.ValidateMinimumDuration | services/video-service.ts:55-61 | rejects exactly the durations under 5000 ms, with the 5-second message |
| VideoService.ValidateCropParameters | services/video-service.ts:92-119 | passes exactly when the length is within 100 ms of 5000 and the window lies inside the video; the length message takes precedence over the bounds message |
| VideoService.CropOrderingCheckUnreachable | services/video-service.ts:100-118 | the start-before-end check can never be the failing one, since a passing length check implies start < end |
| VideoService.ScrubberWindowIsValidCrop | services/video-service.ts:92-119 | every window the scrubber reports for a source of at least 5 s passes the crop check |
| VideoService.ShortSourceWindowRejected | services/video-service.ts:107-111 | for a source under 5 s the scrubber's window always fails the bounds check |
| VideoService.MinimumDurationMatchesScrubberWindow | services/video-service.ts:55-119 | the minimum-duration check passes exactly when the scrubber's window for that source passes the crop check |
| VideoService.ValidateVideoMetadata | services/video-service.ts:125-137 | passes exactly when neither field is blank after trim, and a blank name is reported before the description |
| VideoService.GenerateThumbnail | services/video-service.ts:15-30 | a produced frame is returned; a rejection becomes a thumbnail processing error that keeps the cause exactly when it was an Error |
| VideoService.ProcessVideoAsset | services/video-service.ts:67-86 | an asset over two minutes is refused with the duration error before any thumbnail; otherwise the result succeeds exactly when the thumbnail does; a missing or zero duration skips validation and is recorded as 0 |
| MetadataSchema.FirstFailure | utils/validation.ts:42-46 | none exactly when every check passes; otherwise the message of a failing check with all earlier checks passing |
| MetadataSchema.FieldIssue | utils/validation.ts:13-24 | a missing or non-string field has its type issue; a string has no issue exactly when its trimmed length passes every check |
| MetadataSchema.ValidateVideoMetadata | utils/validation.ts:32-53 | succeeds exactly when both fields pass, and then returns the trimmed strings; on failure each field's message depends only on that field; a non-object input gives no field message |
| MetadataSchema.ThreeChecks | utils/validation.ts:42-46 | among three ordered checks, the reported message is that of the first failing one |
| MetadataSchema.NameIssue | utils/validation.ts:13-18 | the title's message is "required" below 1, the 3-character message below 3, the 100-character message above 100, and none otherwise |
| MetadataSchema.DescriptionIssue | utils/validation.ts:19-24 | the description's message is "required" below 1, the 10-character message below 10, the 500-character message above 500, and none otherwise |
| MetadataSchema.NameRule | utils/validation.ts:13-18 | a title is accepted exactly when its trimmed length is 3 to 100 |
| MetadataSchema.DescriptionRule | utils/validation.ts:19-24 | a description is accepted exactly when its trimmed length is 10 to 500 |
| MetadataSchema.BlankNameMessage | utils/validation.ts:16-17 | a whitespace-only title reports "Title is required", not the length message |
| MetadataSchema.ShortNameMessage | utils/validation.ts:17 | a one- or two-character title reports the 3-character minimum |
| MetadataSchema.SchemaStricterThanService | utils/validation.ts:12-25 | metadata the schema accepts also passes the service's presence check |
| VideoUtils.Fields | utils/video-utils.ts:162-165 | the formatter's fields satisfy total = 3600 h + 60 m + s with m, s < 60, and JavaScript's % agrees with the mathematical one here |
| VideoUtils.LongForm | utils/video-utils.ts:167-168 | from one hour on, the label is unpadded hours followed by two-digit minutes and seconds, which decompose the whole seconds |
| VideoUtils.ShortForm | utils/video-utils.ts:170 | below an hour, the label is unpadded minutes (fewer than 60) and two-digit seconds |
| VideoUtils.FormatDuration | utils/video-utils.ts:161-171 | every label of a non-negative duration reads back in base 60, field by field, as its whole seconds |
| VideoUtils.FormatDurationTruncates | utils/video-utils.ts:162 | the sub-second part of the input never shows |
| VideoUtils.AgreesWithScrubberBelowAnHour | utils/video-utils.ts:170 | below an hour, the duration label equals the scrubber's time label |
| VideoUtils.QualitySettings | utils/video-utils.ts:173-186 | the quality table: none exactly for 'original', the fixed triple for low, medium and high, and medium for any other name |
| VideoUtils.QualityLadder | utils/video-utils.ts:175-180 | width, height and bitrate all strictly increase from low to medium to high |
| VideoUtils.PickVideo | utils/video-utils.ts:18-63 | nothing unless an asset was chosen; the rejection sentinel exactly when the first asset is over 120000 ms; otherwise the asset's item, within the limit |
| VideoUtils.PickerAndServiceAgree | utils/video-utils.ts:32-33 | the picker accepts an asset exactly when the service's duration validator passes on it |
| LegacyVideoUtils.LegacyFormatDuration | utils/videoUtils.ts:129-139 | the legacy formatter gives the same label as the current one on every input |
| LegacyVideoUtils.LegacyQualitySettings | utils/videoUtils.ts:141-154 | the legacy table has no settings exactly for 'original' |
| LegacyVideoUtils.QualityTablesAgree | utils/videoUtils.ts:141-154 | the legacy quality table equals the current one for every name |
| LegacyVideoUtils.LegacyPickVideo | utils/videoUtils.ts:16-46 | any chosen asset is accepted whatever its length, and a missing duration becomes 0 |
| LegacyVideoUtils.PickersDifferOnlyAboveLimit | utils/videoUtils.ts:24-38 | the two pickers return the same item exactly when the duration is at most 120000 ms |
| Lists.Filter | store/video-store.ts:78 | the kept elements come from the input and satisfy the test, every satisfying element is kept, and a test everything passes keeps the list |
| Lists.FilterAppend | store/video-store.ts:78 | filtering distributes over concatenation, so kept elements keep their relative order |
| Lists.FilterOne | store/video-store.ts:78 | a single element is kept exactly when it passes the test |
| Lists.MapWhere | store/video-store.ts:71-73 | the length is preserved; matching elements are replaced by their image and the others stay in place |
| Lists.FindIndex | store/video-store.ts:85 | none exactly when nothing matches; otherwise the first matching position |
| Lists.FindIndexAfterMapWhere | store/video-store.ts:69-86 | rewriting matches into elements that still match leaves the first match where it was |
| Lists.DropIndex | store/videoStore.ts:140 | exactly the element at an in-range position is removed; any other position changes nothing |
| Lists.ReplaceAt | store/videoStore.ts:151 | only the element at the position changes, and the length is preserved |
| DiaryStore.AddVideo | store/video-store.ts:47-50 | the video is appended after the unchanged old list; nothing else changes |
| DiaryStore.RemoveVideo | store/video-store.ts:52-55 | no video with the id remains, every other video stays, and nothing else changes |
| DiaryStore.RemoveVideoKeepsOrder | store/video-store.ts:52-55 | removal distributes over concatenation and keeps or drops a single video by its id, so survivors keep their order and repetitions |
| DiaryStore.AddCroppedVideo | store/video-store.ts:64-67 | the clip goes first and the old clips follow unchanged |
| DiaryStore.Merge | store/video-store.ts:72 | each of the fourteen fields is the supplied value when the patch has one and the clip's own otherwise, and the modification time is the clock's |
| DiaryStore.MergeExtremes | store/video-store.ts:72 | an empty patch only stamps the clip; a patch supplying every field of w yields w, stamped |
| DiaryStore.MergeNameAndDescription | store/video-store.ts:72 | a name-and-description update changes exactly those two fields and the modification time |
| DiaryStore.UpdateCroppedVideo | store/video-store.ts:69-74 | the length is preserved, only clips with the id are merged, and nothing else in the state changes |
| DiaryStore.RemoveCroppedVideo | store/video-store.ts:76-79 | no clip with the id remains, all others stay, and an absent id changes nothing |
| DiaryStore.RemoveCroppedVideoKeepsOrder | store/video-store.ts:76-79 | removal distributes over concatenation and keeps or drops a single clip by its id, so surviving clips keep their order and repetitions |
| DiaryStore.GetCroppedVideoById | store/video-store.ts:84-86 | the lookup returns the first clip with the id, or none exactly when no clip has it |
| DiaryStore.ToggleFavorite | store/video-store.ts:88-93 | matching clips get the opposite flag (absent counts as false) and the clock's time; other clips are untouched |
| DiaryStore.ToggleFavoriteTwice | store/video-store.ts:88-93 | toggling twice restores every favourite flag and changes nothing but the time |
| DiaryStore.GetAfterAdd | store/video-store.ts:64-67 | a clip just added is what a lookup of its id finds |
| DiaryStore.GetAfterRemove | store/video-store.ts:76-79 | after removal no lookup of that id succeeds |
| DiaryStore.GetAfterUpdate | store/video-store.ts:69-86 | after an update that keeps ids, the lookup finds the merged version of the clip it found before |
| DiaryStore.ResetExportProgress | store/video-store.ts:99-105 | the export progress returns to 0 and idle, and nothing else changes |
| DiaryStore.Partialize | store/video-store.ts:111-113 | the persisted projection is the clip list |
| DiaryStore.PersistedIgnoresTransientState | store/video-store.ts:107-113 | changing videos, selections or export progress never changes what is persisted |
| ProjectStore.AddVideo | store/videoStore.ts:47-50 | the video is appended after the unchanged old list; nothing else changes |
| ProjectStore.RemoveVideo | store/videoStore.ts:52-55 | no video with the id remains, every other video stays, and nothing else changes |
| ProjectStore.RemoveVideoKeepsOrder | store/videoStore.ts:52-55 | removal distributes over concatenation and keeps or drops a single video by its id, so survivors keep their order and repetitions |
| ProjectStore.CreateProject | store/videoStore.ts:64-76 | a project with the given name and no videos, segments, overlays or filters; id and timestamps are three separate clock readings |
| ProjectStore.UpdateProject | store/videoStore.ts:78-83 | a missing project stays missing; otherwise supplied fields win, the others are kept, and the project is stamped |
| ProjectStore.EmptyPatchOnlyStamps | store/videoStore.ts:78-83 | an empty update only moves the modification time |
| ProjectStore.ClearProject | store/videoStore.ts:85-86 | the project is gone and nothing else changes |
| ProjectStore.AddTextOverlay | store/videoStore.ts:89-98 | exactly one overlay is appended; filters and all other project fields are unchanged; a missing project stays missing |
| ProjectStore.RemoveTextOverlay | store/videoStore.ts:100-109 | no overlay with the id remains and all others stay; filters are unchanged |
| ProjectStore.RemoveTextOverlayKeepsOrder | store/videoStore.ts:100-109 | removal distributes over concatenation and keeps or drops a single overlay by its id, so surviving overlays keep their order and repetitions |
| ProjectStore.AddThenRemoveTextOverlay | store/videoStore.ts:89-109 | removing an overlay by its id right after adding it, when no other overlay had that id, gives back the overlays and filters |
| ProjectStore.MergeOverlay | store/videoStore.ts:117 | each of the eight fields is the supplied value when the patch has one and the overlay's own otherwise |
| ProjectStore.MergeOverlayExtremes | store/videoStore.ts:117 | an empty patch leaves the overlay as it was; a patch supplying every field of w yields w |
| ProjectStore.UpdateTextOverlay | store/videoStore.ts:111-122 | the length is preserved and only overlays with the id are merged; filters are unchanged |
| ProjectStore.UpdateWithNoChangesOnlyStamps | store/videoStore.ts:111-122 | an update that supplies nothing leaves every overlay as it was and only stamps the project |
| ProjectStore.AddFilter | store/videoStore.ts:124-133 | exactly one filter is appended; overlays are unchanged |
| ProjectStore.RemoveFilter | store/videoStore.ts:135-144 | exactly the filter at an in-range index is removed, and any other index leaves the filters as they were |
| ProjectStore.UpdateFilter | store/videoStore.ts:146-155 | only the filter at the index is replaced, and the length is preserved |
| ProjectStore.AddThenRemoveFilter | store/videoStore.ts:124-144 | adding a filter and removing the last one gives back the filters |
| ProjectStore.ResetExportProgress | store/videoStore.ts:161-167 | the export progress returns to 0 and idle, and nothing else changes |
| Editor.HandlePlaybackStatusUpdate | app/editor.tsx:54-66 | an unloaded status changes nothing; a loaded one copies position, duration (0 if absent) and playing; the player is sent back to the trim start exactly when trimEnd > 0 and the position reached it |
| Editor.InitTrimEnd | app/editor.tsx:48-52 | the trim end adopts the duration only when the duration is positive and no trim end is set; nothing else changes |
| Editor.InitTrimEndIdempotent | app/editor.tsx:48-52 | running the effect twice is running it once |
| Editor.LoopsBackAfterInit | app/editor.tsx:48-66 | once the first known duration has set the trim end, reaching it sends playback back to the trim start |
| Editor.HandleAddText | app/editor.tsx:80-95 | blank input does nothing; other input appends one overlay at the current time with the fixed style, then clears and closes the dialog |
| Editor.HandleApplyFilter | app/editor.tsx:97-106 | no selection does nothing; a selection appends that filter at intensity 1.0 and closes the dialog |
| Editor.AddTextThenRemove | app/editor.tsx:80-95 | the overlay the action appends is removed again by the id it was given, when that id is new, restoring overlays and filters |
| Editor.ApplyThenRemoveFilter | app/editor.tsx:97-106 | removing the last filter after applying one gives back the filters and overlays |
| ReelsCard.PlaybackDecision | components/reels-video-card.tsx:66-86 | no command without a player or once unmounted; otherwise play exactly when active and not held, pause otherwise |
| ReelsCard.CardContentFit | components/reels-video-card.tsx:89-111 | cover exactly when both dimensions are present and non-zero and width/height ≤ 0.6 |
| ReelsCard.CommonShapes | components/reels-video-card.tsx:93-106 | 9:16 is covered; 4:5, square and landscape are contained |
| ReelsCard.HandlePressIn | components/reels-video-card.tsx:113 | holding sets the held flag, after which the settle timer never plays the card |
| ReelsCard.HandlePressOut | components/reels-video-card.tsx:114 | releasing clears the flag, after which the timer plays exactly an active, mounted card with a player |
| ReelsCard.PressAndRelease | components/reels-video-card.tsx:113-114 | holding the active card pauses it and releasing resumes it |
| ReelsCard.SkipRerender | components/reels-video-card.tsx:240-246 | identical props skip; a skipped re-render has the same clip id, active flag and favourite state; an absent flag against an explicit false never skips |
| ReelsCard.UncomparedFieldsSkip | components/reels-video-card.tsx:240-246 | props that differ only outside id, active flag and raw favourite flag always skip |
| ReelsCard.RenamedCardSkips | components/reels-video-card.tsx:240-246 | renaming a clip in the store does not re-render its card, which keeps the old title and description |
| ReelsCard.ToggledCardRerenders | components/reels-video-card.tsx:240-246 | toggling a clip's favourite always re-renders its card |
| ReelsCard.SkippedRenderKeepsDecision | components/reels-video-card.tsx:66-86 | a skipped render never hides a change of playback decision |
| ExportScreen.Progresses | app/export.tsx:71-76 | the progress values a trace publishes, at most one per effect |
| ExportScreen.ProgressesAppend | app/export.tsx:71-100 | the progress published by two consecutive runs is the concatenation of each run's |
| ExportScreen.HandleExport | app/export.tsx:63-132 | without a video only an alert; otherwise exporting is set first and cleared last; progress goes to 0, then 0, 10, ..., 100 while processing, then to the permission answer's result; exactly one alert, just before the clearing: the completion alert after the completed progress, the permission alert before the failed one, or the error alert after it |
| ExportScreen.Framed | app/export.tsx:63-132 | the bracketed run keeps the exporting mark at its two ends only, puts the ending just before the clearing with no earlier alert, and publishes the run's progress then the ending's |
| ExportScreen.TicksAreMonotone | app/export.tsx:74-77 | the processing progress never decreases and stays in steps of 10 between 0 and 100 |
| ExportScreen.FinalProgress | app/export.tsx:80-127 | completed at 100 with the video's uri exactly when permission was granted; otherwise failed at 0 without output, with "Permission denied" or "Export failed" |
| ExportScreen.OnlyCompletedHasOutput | app/export.tsx:70-127 | idle, processing and failed progress never carry an output |
| ExportScreen.HandleShare | app/export.tsx:134-154 | without an output uri only the no-video alert; with one, the file is shared when sharing is available and otherwise the unavailable alert is shown; a share happens only then |
| ExportScreen.HandleSaveToGallery | app/export.tsx:156-172 | without an output uri only an alert; with one, it is saved to the VidCut album |
| ExportScreen.ShareAfterExport | app/export.tsx:259-273 | the completed-state Share button, reading the stored progress, shares the video's file after a granted export, and only alerts on a failed one |
| ExportScreen.AlertPressAsWritten | app/export.tsx:102-120 | the completion alert's buttons act on the progress captured when the export started: without an output they only alert, and any file they use is the captured one |
| ExportScreen.AlertButtonsReadStaleProgress | app/export.tsx:134-172 | with a captured progress lacking output both alert buttons only report that there is nothing to share or save, though the export has stored the uri |
| ExportScreen.AlertPressCorrected | app/export.tsx:96-120 | acting on the stored progress, the alert's Share shares and its Save saves the exported video |
| ExportScreen.FirstExportAlert | app/export.tsx:102-120 | on a first export the alert as written and as intended differ on both buttons |
| Onboarding.HandleNext | app/onboarding.tsx:49-57 | before the last slide, Next advances by exactly one; on it, Next finishes |
| Onboarding.HandleGetStarted | app/onboarding.tsx:63-71 | finishing first tries to store the seen-onboarding flag, logs one error exactly when storing fails and does nothing else, and ends by replacing the route with the tabs on both paths |
| Onboarding.SkipVisible | app/onboarding.tsx:98 | Skip shows exactly before the last slide |
| Onboarding.ButtonLabel | app/onboarding.tsx:141 | the button reads Get Started exactly on the last slide, and Next otherwise |
| Onboarding.HighlightedDots | app/onboarding.tsx:127-129 | exactly one dot, the current slide's, is highlighted while the index names a slide, and none past either end |
| Onboarding.Round | app/onboarding.tsx:116 | Math.round gives the integer within half a unit, halves rounding up |
| Onboarding.IndexFromScroll | app/onboarding.tsx:115-118 | the derived index is the page whose centre band holds the offset |
| Onboarding.RestingOnPage | app/onboarding.tsx:115-118 | resting exactly on page k reports index k |
| Onboarding.BandsAreDisjoint | app/onboarding.tsx:115-118 | no offset lies in the bands of two different pages |
| Onboarding.DotFollowsScroll | app/onboarding.tsx:115-129 | within half a page of slide k the scroll handler highlights k's dot and no other |
| Onboarding.PressesToFinish | app/onboarding.tsx:49-57 | from slide i, each press advances one slide and the (last − i + 1)-th finishes |
| Onboarding.SkipOrGetStarted | app/onboarding.tsx:98-141 | on every slide, Skip shows exactly when the button reads Next |
| Details.DetailsContentFit | app/details.tsx:41-46 | cover exactly when the clip exists and was cropped to 9:16 |
| Details.SaveChanges | app/details.tsx:299-320 | a blank name, then a blank description, only alerts and leaves the store unchanged; otherwise the untrimmed fields are written to the clip with the route's id and the dialog closes |
| Details.SaveGuardMatchesService | app/details.tsx:300-313 | the screen saves exactly when the service's metadata check passes |
| Details.SavedClipIsShown | app/details.tsx:24-320 | after a save the screen's lookup finds the same clip with the new name, description and time |
| Details.CloseEditModal | app/details.tsx:246-249 | closing hides the dialog and restores the stored name and description (empty with no clip) |
| Details.CancelDiscardsEdits | app/details.tsx:246-249 | edits made before closing are forgotten |
| MetadataModal.ModalContentFit | components/metadata-modal.tsx:45-52 | contained exactly for the original ratio, which is the default |
| MetadataModal.ContainerStyle | components/metadata-modal.tsx:55-77 | 9:16 gives a box of min(half the screen, 200) wide in 9:16 proportion; the original ratio gives full width and 240 high |
| MetadataModal.SaveDisabled | components/metadata-modal.tsx:175-177 | Save is disabled exactly while saving or while either field is blank |
| MetadataModal.SaveEnabledMatchesService | components/metadata-modal.tsx:175-177 | when not saving, Save is enabled exactly when the service's metadata check passes |
| MetadataModal.DurationBadge | components/metadata-modal.tsx:115 | the badge reads back as the whole seconds of the trim window |
| MetadataModal.ScrubberWindowBadge | components/metadata-modal.tsx:115 | any window from the scrubber is badged "0:05" |
| MetadataModal.FiveSecondBadge | components/metadata-modal.tsx:115 | five seconds is labelled "0:05" |
| MetadataModal.FourSecondBadge | components/metadata-modal.tsx:115 | four seconds is labelled "0:04" |
| MetadataModal.AcceptedCropBadge | components/metadata-modal.tsx:115 | any crop the service accepts is badged "0:04" or "0:05" |

## Left out

- Device, file and network I/O are parameters, not behaviour. This covers
  the picker, the camera, the media library, sharing, the thumbnail service,
  file deletion and AsyncStorage.
- `Promise.all` inside a scrubber batch, the parallel deletions of cleanup,
  and the settle timer of the reels card are modelled as sequential steps.
  Only the order of their effects is modelled.
- Timers and delays are left out: the 300 ms export ticks and the 50 ms
  reels delay.
- The image-cache clearing of cleanup is an effect with no content.
- JavaScript floating point is modelled with exact reals and integers.
  Rounding errors, NaN and infinities are not modelled. Integer durations
  are unbounded.
- DiaryStore.UpdateCroppedVideo: `Date.now()` is read once per matching
  clip inside the `map`; the model stamps every matching clip with one
  reading `now`, so clips sharing an id could in the source get different
  times a millisecond apart.
- DiaryStore.ToggleFavorite: same single reading `now` for every matching
  clip, for the same reason.
- Scrubber.FormatTime and VideoUtils.FormatDuration are proved only for
  non-negative inputs. The app never formats a negative time.
- LegacyVideoUtils.LegacyFormatDuration carries the read-back property only
  through its agreement with VideoUtils.FormatDuration.
- DiaryStore.Merge: a patch cannot unset an optional field (a JavaScript
  `undefined` in a spread), because `None` in a patch means "not supplied".
- ProjectStore.MergeOverlay: same limitation as Merge.
- Details.SaveChanges: the clip lookup runs once per render. The model takes
  the state before the save and does not model re-rendering.
- The editor's project-creation effect (app/editor.tsx:37-46) is left out.
  It is a navigation and `createProject` call, and ProjectStore.CreateProject
  models it.
- handlePlayPause and handleSeek are left out. They are direct player calls
  with no decision.
- loadVideosFromLibrary, requestPermissions, downloadVideoToGallery and
  shareVideo of the utility files are left out. They are sequences of
  platform calls.
- setSelectedVideo, clearVideos, setSelectedCroppedVideo and
  setExportProgress are left out. Each sets one field; they appear only in
  PersistedIgnoresTransientState, as field updates.
- The export alert's Done button (router.back) is left out. Its Share and
  Save buttons are modelled, and the Findings section describes them.
- The success alerts of the editor dialogs are left out. They carry no
  state.
- The failure branches of share and save beyond the guard are reduced to
  alerts. They depend on platform calls.
- The thumbnail quality options, the picker's export preset, and the
  picker's own `videoMaxDuration` hint are left out. They are passed to the
  platform and the code does not act on them.
- There is no scroll-end handler, no inverse mapping from time to pixels, no
  cancellation of a running generation, and no playback-stuck check.
- trimVideo in hooks/use-video-cropping.ts, app-setup, theme and the purely
  presentational components are not part of this model.

## Findings

| source | as written | input that shows it | evidently intended | confidence | as-written member | corrected member |
|---|---|---|---|---|---|---|
| app/export.tsx:102-113 | the completion alert's Share and Save callbacks are the `handleShare` and `handleSaveToGallery` of the render that started the export, and they read that render's `exportProgress`; the Start Export button shows only while the status is not completed, so that progress has no output | a first export of a video with uri "file://a.mp4" and permission granted, then Share or Save pressed in the alert | the alert's buttons share or save the file the export has just stored, as the completed-state buttons do | high; not executed | ExportScreen.AlertPressAsWritten, with ExportScreen.FirstExportAlert and ExportScreen.AlertButtonsReadStaleProgress | ExportScreen.AlertPressCorrected |

=== FILE: clock.dfy ===
/** Reading a clock label back: the independent partner of the app's two
    time formatters (`formatTime` and `formatDuration`). A label is a list
    of colon-separated decimal fields read in base 60, so "1:02:03" denotes
    3723 seconds and "7:05" denotes 425. */
module Clock {
  import opened Wrappers
  import opened Js

  /** The position of the last ':' in `s`, if there is one. */
  function LastColon(s: string): (r: Option<nat>)
    ensures r.None? ==> forall i :: 0 <= i < |s| ==> s[i] != ':'
    ensures r.Some? ==> r.value < |s| && s[r.value] == ':'
    ensures r.Some? ==> forall i :: r.value < i < |s| ==> s[i] != ':'
  {
    if |s| == 0 then None
    else if s[|s| - 1] == ':' then Some(|s| - 1)
    else LastColon(s[..|s| - 1])
  }

  /** The number of seconds a colon-separated label denotes. */
  function ParseClock(s: string): nat
    decreases |s|
  {
    match LastColon(s)
    case None => ParseNat(s)
    case Some(k) => ParseClock(s[..k]) * 60 + ParseNat(s[k + 1..])
  }

  lemma {:induction false} LastColonBeforeDigits(a: string, b: string)
    requires AllDigits(b)
    ensures LastColon(a + ":" + b) == Some(|a|)
    decreases |b|
  {
    var s := a + ":" + b;
    if |b| > 0 {
      assert s[|s| - 1] == b[|b| - 1];
      assert s[..|s| - 1] == a + ":" + b[..|b| - 1];
      LastColonBeforeDigits(a, b[..|b| - 1]);
    }
  }

  /** Appending a field of digits multiplies what the label denotes by 60
      and adds the field's value. */
  lemma AppendField(a: string, b: string)
    requires AllDigits(b)
    ensures ParseClock(a + ":" + b) == ParseClock(a) * 60 + ParseNat(b)
  {
    var s := a + ":" + b;
    LastColonBeforeDigits(a, b);
    assert s[..|a|] == a;
    assert s[|a| + 1..] == b;
  }

  /** A label with no colon is read as one decimal number. */
  lemma SingleField(a: string)
    requires AllDigits(a)
    ensures ParseClock(a) == ParseNat(a)
  {
  }

  /** An `m:ss` label with two-digit seconds reads back as 60 m + s. */
  lemma TwoFields(m: nat, s: nat)
    requires s < 100
    ensures ParseClock(NatToString(m) + ":" + PadStart2(NatToString(s))) == m * 60 + s
  {
    var ms, ss := NatToString(m), PadStart2(NatToString(s));
    TwoDigits(s);
    SingleField(ms);
    AppendField(ms, ss);
  }

  /** An `h:mm:ss` label with two-digit minutes and seconds reads back as
      3600 h + 60 m + s. */
  lemma ThreeFields(h: nat, m: nat, s: nat)
    requires m < 100 && s < 100
    ensures ParseClock(NatToString(h) + ":" + PadStart2(NatToString(m)) + ":" + PadStart2(NatToString(s)))
            == (h * 60 + m) * 60 + s
  {
    var hs, ms, ss := NatToString(h), PadStart2(NatToString(m)), PadStart2(NatToString(s));
    TwoDigits(m);
    TwoDigits(s);
    SingleField(hs);
    AppendField(hs, ms);
    AppendField(hs + ":" + ms, ss);
  }
}

=== FILE: constants.dfy ===
/** Application-wide constants of constants/app.ts and the scrubber's layout constants. */
module AppConstants {

  /** Longest accepted source video, in milliseconds (2 minutes). */
  const MAX_DURATION_MS: int := 120000

  /** Longest accepted source video, in seconds. */
  const MAX_DURATION_SECONDS: int := 120

  /** The fixed length of every saved clip, in milliseconds. */
  const CROP_DURATION_MS: int := 5000

  /** How far a crop may deviate from CROP_DURATION_MS, in milliseconds. */
  const DURATION_TOLERANCE_MS: int := 100

  /** Width of one thumbnail cell of the scrubber; one cell is one second. */
  const THUMBNAIL_WIDTH: int := 60

  /** Number of thumbnail requests issued together by the scrubber. */
  const THUMBNAIL_BATCH_SIZE: int := 10
}

=== FILE: details.dfy ===
/** The clip details screen (app/details.tsx): its content-fit rule, the
    guards of the Save Changes button of the edit dialog, and the reset of
    the dialog's fields when it is closed. The clip shown is the store's
    first clip with the route's id (`videoId || ""`). */
module Details {
  import opened Wrappers
  import opened Js
  import opened VideoTypes
  import DiaryStore
  import VideoService

  datatype ContentFit = Contain | Cover

  /** `getContentFit`: letterboxed unless the clip was cropped to 9:16. */
  function DetailsContentFit(clip: Option<CroppedVideo>): (f: ContentFit)
    ensures f == Cover <==> clip.Some? && clip.value.aspectRatio == Some(Portrait9x16)
  {
    if clip.None? || clip.value.aspectRatio.None? || clip.value.aspectRatio.value == Original then Contain
    else
      assert clip.value.aspectRatio.value.Portrait9x16?;
      Cover
  }

  /** The edit dialog. */
  datatype EditForm = EditForm(showEditModal: bool, editName: string, editDescription: string)

  /** What Save Changes leads to. */
  datatype SaveOutcome = SaveOutcome(form: EditForm, store: DiaryStore.DiaryState, alert: string)

  /** The store's key for the route parameter. */
  function RouteKey(videoId: Option<string>): string {
    videoId.GetOr("")
  }

  /** Save Changes: a blank name or, after it, a blank description only
      alerts; otherwise the untrimmed name and description are written to
      the clip and the dialog closes. */
  function SaveChanges(form: EditForm, store: DiaryStore.DiaryState, videoId: Option<string>, now: int)
    : (r: SaveOutcome)
    ensures AllWhitespace(form.editName) ==>
              r == SaveOutcome(form, store, "Please enter a name for your video")
    ensures !AllWhitespace(form.editName) && AllWhitespace(form.editDescription) ==>
              r == SaveOutcome(form, store, "Please enter a description for your video")
    ensures r.store != store ==> !AllWhitespace(form.editName) && !AllWhitespace(form.editDescription)
    ensures !AllWhitespace(form.editName) && !AllWhitespace(form.editDescription) ==>
              r.form == form.(showEditModal := false)
              && r.alert == "Video details updated successfully!"
              && r.store == DiaryStore.UpdateCroppedVideo(store, RouteKey(videoId),
                   DiaryStore.NameAndDescription(form.editName, form.editDescription), now)
  {
    if Trim(form.editName) == "" then SaveOutcome(form, store, "Please enter a name for your video")
    else if Trim(form.editDescription) == "" then SaveOutcome(form, store, "Please enter a description for your video")
    else
      SaveOutcome(form.(showEditModal := false),
                  DiaryStore.UpdateCroppedVideo(store, RouteKey(videoId),
                    DiaryStore.NameAndDescription(form.editName, form.editDescription), now),
                  "Video details updated successfully!")
  }

  /** The screen's guard accepts exactly what the service's metadata check
      accepts. */
  lemma SaveGuardMatchesService(form: EditForm, store: DiaryStore.DiaryState, videoId: Option<string>, now: int)
    ensures SaveChanges(form, store, videoId, now).alert == "Video details updated successfully!"
            <==> VideoService.ValidateVideoMetadata(form.editName, form.editDescription).Pass?
  {
  }

  /** After a successful save the screen shows the edited clip: same clip,
      new name and description, new modification time. */
  lemma SavedClipIsShown(form: EditForm, store: DiaryStore.DiaryState, videoId: Option<string>, now: int)
    requires !AllWhitespace(form.editName) && !AllWhitespace(form.editDescription)
    requires DiaryStore.GetCroppedVideoById(store, RouteKey(videoId)).Some?
    ensures var before := DiaryStore.GetCroppedVideoById(store, RouteKey(videoId)).value;
            var after := SaveChanges(form, store, videoId, now).store;
            DiaryStore.GetCroppedVideoById(after, RouteKey(videoId))
              == Some(before.(name := form.editName, description := form.editDescription, updatedAt := now))
  {
    var patch := DiaryStore.NameAndDescription(form.editName, form.editDescription);
    DiaryStore.GetAfterUpdate(store, RouteKey(videoId), patch, now);
    DiaryStore.MergeNameAndDescription(DiaryStore.GetCroppedVideoById(store, RouteKey(videoId)).value,
                                       form.editName, form.editDescription, now);
  }

  /** Closing the dialog hides it and puts back the stored name and
      description (empty when there is no clip). */
  function CloseEditModal(form: EditForm, clip: Option<CroppedVideo>): (r: EditForm)
    ensures !r.showEditModal
    ensures clip.Some? ==> r.editName == clip.value.name && r.editDescription == clip.value.description
    ensures clip.None? ==> r.editName == "" && r.editDescription == ""
  {
    var name := if clip.Some? && clip.value.name != "" then clip.value.name else "";
    var description := if clip.Some? && clip.value.description != "" then clip.value.description else "";
    EditForm(false, name, description)
  }

  /** Editing and cancelling leaves the form as if it had just been opened
      on the clip, so the next save proposes the stored values. */
  lemma CancelDiscardsEdits(form: EditForm, clip: CroppedVideo, name: string, description: string)
    ensures CloseEditModal(form.(editName := name, editDescription := description), Some(clip))
            == CloseEditModal(form, Some(clip))
  {
  }
}

=== FILE: diary_store.dfy ===
/** The persisted video-diary store (store/video-store.ts): the picked
    videos, the saved clips (newest first), the current selections and the
    export progress. Every action is a pure function from the old state to
    the new one; the clock reading an action stamps is a parameter. */
module DiaryStore {
  import opened Wrappers
  import opened VideoTypes
  import Lists

  datatype DiaryState = DiaryState(
    videos: seq<VideoItem>,
    croppedVideos: seq<CroppedVideo>,
    selectedVideo: Option<VideoItem>,
    selectedCroppedVideo: Option<CroppedVideo>,
    exportProgress: ExportProgress)

  const InitialState: DiaryState := DiaryState([], [], None, None, IdleProgress)

  /** `addVideo`: appends; nothing else changes. */
  function AddVideo(s: DiaryState, video: VideoItem): (t: DiaryState)
    ensures |t.videos| == |s.videos| + 1 && t.videos[|s.videos|] == video
    ensures t.videos[..|s.videos|] == s.videos
    ensures t == s.(videos := t.videos)
  {
    s.(videos := s.videos + [video])
  }

  /** `removeVideo`: drops every video with that id and keeps the rest. */
  function RemoveVideo(s: DiaryState, videoId: string): (t: DiaryState)
    ensures forall i :: 0 <= i < |t.videos| ==> t.videos[i].id != videoId && t.videos[i] in s.videos
    ensures forall i :: 0 <= i < |s.videos| && s.videos[i].id != videoId ==> s.videos[i] in t.videos
    ensures t == s.(videos := t.videos)
  {
    s.(videos := Lists.Filter(s.videos, OtherVideo(videoId)))
  }

  /** Removal distributes over concatenation and keeps or drops one video
      by its id, so the survivors keep their order and their repetitions. */
  lemma RemoveVideoKeepsOrder(s: DiaryState, a: seq<VideoItem>, b: seq<VideoItem>, v: VideoItem, videoId: string)
    ensures RemoveVideo(s.(videos := a + b), videoId).videos
            == RemoveVideo(s.(videos := a), videoId).videos + RemoveVideo(s.(videos := b), videoId).videos
    ensures RemoveVideo(s.(videos := [v]), videoId).videos == if v.id == videoId then [] else [v]
  {
    Lists.FilterAppend(a, b, OtherVideo(videoId));
    Lists.FilterOne(v, OtherVideo(videoId));
  }

  /** `addCroppedVideo`: the new clip goes first and the others shift by one. */
  function AddCroppedVideo(s: DiaryState, video: CroppedVideo): (t: DiaryState)
    ensures |t.croppedVideos| == |s.croppedVideos| + 1
    ensures t.croppedVideos[0] == video && t.croppedVideos[1..] == s.croppedVideos
    ensures t == s.(croppedVideos := t.croppedVideos)
  {
    s.(croppedVideos := [video] + s.croppedVideos)
  }

  /** A `Partial<CroppedVideo>`: the fields an update supplies. */
  datatype CroppedPatch = CroppedPatch(
    id: Option<string>,
    name: Option<string>,
    description: Option<string>,
    uri: Option<string>,
    originalVideoUri: Option<string>,
    startTime: Option<real>,
    endTime: Option<real>,
    duration: Option<real>,
    thumbnail: Option<string>,
    width: Option<nat>,
    height: Option<nat>,
    aspectRatio: Option<AspectRatio>,
    isFavorite: Option<bool>,
    createdAt: Option<int>)

  /** Only the name and description, as the details screen sends them. */
  function NameAndDescription(name: string, description: string): CroppedPatch {
    CroppedPatch(None, Some(name), Some(description), None, None, None, None, None,
                 None, None, None, None, None, None)
  }

  function Pick<T>(supplied: Option<T>, current: T): T {
    if supplied.Some? then supplied.value else current
  }

  function PickOptional<T>(supplied: Option<T>, current: Option<T>): Option<T> {
    if supplied.Some? then supplied else current
  }

  /** `{ ...v, ...updates, updatedAt: now }`: every supplied field wins, the
      others keep their value, and the modification time is the clock's. */
  function Merge(v: CroppedVideo, p: CroppedPatch, now: int): (m: CroppedVideo)
    ensures m.updatedAt == now
    ensures Spread(p.id, v.id, m.id) && Spread(p.name, v.name, m.name)
            && Spread(p.description, v.description, m.description) && Spread(p.uri, v.uri, m.uri)
            && Spread(p.originalVideoUri, v.originalVideoUri, m.originalVideoUri)
            && Spread(p.startTime, v.startTime, m.startTime) && Spread(p.endTime, v.endTime, m.endTime)
            && Spread(p.duration, v.duration, m.duration) && Spread(p.createdAt, v.createdAt, m.createdAt)
    ensures SpreadOptional(p.thumbnail, v.thumbnail, m.thumbnail)
            && SpreadOptional(p.width, v.width, m.width) && SpreadOptional(p.height, v.height, m.height)
            && SpreadOptional(p.aspectRatio, v.aspectRatio, m.aspectRatio)
            && SpreadOptional(p.isFavorite, v.isFavorite, m.isFavorite)
  {
    CroppedVideo(
      Pick(p.id, v.id), Pick(p.name, v.name), Pick(p.description, v.description),
      Pick(p.uri, v.uri), Pick(p.originalVideoUri, v.originalVideoUri),
      Pick(p.startTime, v.startTime), Pick(p.endTime, v.endTime), Pick(p.duration, v.duration),
      PickOptional(p.thumbnail, v.thumbnail), PickOptional(p.width, v.width),
      PickOptional(p.height, v.height), PickOptional(p.aspectRatio, v.aspectRatio),
      PickOptional(p.isFavorite, v.isFavorite), Pick(p.createdAt, v.createdAt),
      now)
  }

  /** The patch that supplies nothing. */
  const NoChanges: CroppedPatch :=
    CroppedPatch(None, None, None, None, None, None, None, None, None, None, None, None, None, None)

  /** The patch that supplies every field of `w`. */
  function PatchOf(w: CroppedVideo): CroppedPatch {
    CroppedPatch(Some(w.id), Some(w.name), Some(w.description), Some(w.uri), Some(w.originalVideoUri),
                 Some(w.startTime), Some(w.endTime), Some(w.duration), w.thumbnail, w.width, w.height,
                 w.aspectRatio, w.isFavorite, Some(w.createdAt))
  }

  /** An empty update only stamps the clip; one that supplies every field
      of `w` turns any clip into `w`, stamped. */
  lemma MergeExtremes(v: CroppedVideo, w: CroppedVideo, now: int)
    requires w.thumbnail.Some? && w.width.Some? && w.height.Some? && w.aspectRatio.Some? && w.isFavorite.Some?
    ensures Merge(v, NoChanges, now) == v.(updatedAt := now)
    ensures Merge(v, PatchOf(w), now) == w.(updatedAt := now)
  {
  }

  /** The details screen's update changes the name, the description and the
      modification time of a clip and nothing else. */
  lemma MergeNameAndDescription(v: CroppedVideo, name: string, description: string, now: int)
    ensures Merge(v, NameAndDescription(name, description), now)
            == v.(name := name, description := description, updatedAt := now)
  {
  }

  /** The test `v.id === videoId` the clip actions select by. */
  function HasId(videoId: string): CroppedVideo -> bool {
    (v: CroppedVideo) => v.id == videoId
  }

  /** `updateCroppedVideo`: merges the patch into every clip with that id,
      in place; the list keeps its length and the other clips. */
  function UpdateCroppedVideo(s: DiaryState, videoId: string, updates: CroppedPatch, now: int): (t: DiaryState)
    ensures |t.croppedVideos| == |s.croppedVideos|
    ensures forall i :: 0 <= i < |s.croppedVideos| && s.croppedVideos[i].id == videoId
              ==> t.croppedVideos[i] == Merge(s.croppedVideos[i], updates, now)
    ensures forall i :: 0 <= i < |s.croppedVideos| && s.croppedVideos[i].id != videoId
              ==> t.croppedVideos[i] == s.croppedVideos[i]
    ensures t == s.(croppedVideos := t.croppedVideos)
  {
    s.(croppedVideos := Lists.MapWhere(s.croppedVideos, HasId(videoId),
                                       (v: CroppedVideo) => Merge(v, updates, now)))
  }

  /** `removeCroppedVideo`: drops every clip with that id and keeps the
      others, in order. */
  function RemoveCroppedVideo(s: DiaryState, videoId: string): (t: DiaryState)
    ensures forall i :: 0 <= i < |t.croppedVideos| ==>
              t.croppedVideos[i].id != videoId && t.croppedVideos[i] in s.croppedVideos
    ensures forall i :: 0 <= i < |s.croppedVideos| && s.croppedVideos[i].id != videoId
              ==> s.croppedVideos[i] in t.croppedVideos
    ensures (forall i :: 0 <= i < |s.croppedVideos| ==> s.croppedVideos[i].id != videoId) ==> t == s
    ensures t == s.(croppedVideos := t.croppedVideos)
  {
    s.(croppedVideos := Lists.Filter(s.croppedVideos, OtherThan(videoId)))
  }

  /** The test `v.id !== videoId` the clip list is filtered by. */
  function OtherThan(videoId: string): CroppedVideo -> bool {
    (v: CroppedVideo) => v.id != videoId
  }

  /** Removal distributes over concatenation and keeps or drops one clip by
      its id, so the surviving clips keep their order and repetitions. */
  lemma RemoveCroppedVideoKeepsOrder(s: DiaryState, a: seq<CroppedVideo>, b: seq<CroppedVideo>,
                                     v: CroppedVideo, videoId: string)
    ensures RemoveCroppedVideo(s.(croppedVideos := a + b), videoId).croppedVideos
            == RemoveCroppedVideo(s.(croppedVideos := a), videoId).croppedVideos
               + RemoveCroppedVideo(s.(croppedVideos := b), videoId).croppedVideos
    ensures RemoveCroppedVideo(s.(croppedVideos := [v]), videoId).croppedVideos
            == if v.id == videoId then [] else [v]
  {
    Lists.FilterAppend(a, b, OtherThan(videoId));
    Lists.FilterOne(v, OtherThan(videoId));
  }

  /** `getCroppedVideoById`: the first clip with that id, if any. */
  function GetCroppedVideoById(s: DiaryState, videoId: string): (r: Option<CroppedVideo>)
    ensures r.None? <==> forall i :: 0 <= i < |s.croppedVideos| ==> s.croppedVideos[i].id != videoId
    ensures r.Some? ==> exists i :: 0 <= i < |s.croppedVideos| && s.croppedVideos[i] == r.value
                          && r.value.id == videoId
                          && forall j :: 0 <= j < i ==> s.croppedVideos[j].id != videoId
  {
    match Lists.FindIndex(s.croppedVideos, HasId(videoId))
    case None => None
    case Some(i) => Some(s.croppedVideos[i])
  }

  /** Whether a clip counts as a favourite: an absent flag is false. */
  function IsFavorite(v: CroppedVideo): bool {
    v.isFavorite.GetOr(false)
  }

  function Flip(v: CroppedVideo, now: int): CroppedVideo {
    v.(isFavorite := Some(!IsFavorite(v)), updatedAt := now)
  }

  /** `toggleFavorite`: every clip with that id gets the opposite flag and
      the clock's time; all other clips are untouched. */
  function ToggleFavorite(s: DiaryState, videoId: string, now: int): (t: DiaryState)
    ensures |t.croppedVideos| == |s.croppedVideos|
    ensures forall i :: 0 <= i < |s.croppedVideos| && s.croppedVideos[i].id == videoId
              ==> IsFavorite(t.croppedVideos[i]) == !IsFavorite(s.croppedVideos[i])
                  && t.croppedVideos[i].isFavorite.Some?
                  && t.croppedVideos[i] == s.croppedVideos[i].(isFavorite := t.croppedVideos[i].isFavorite, updatedAt := now)
    ensures forall i :: 0 <= i < |s.croppedVideos| && s.croppedVideos[i].id != videoId
              ==> t.croppedVideos[i] == s.croppedVideos[i]
    ensures t == s.(croppedVideos := t.croppedVideos)
  {
    s.(croppedVideos := Lists.MapWhere(s.croppedVideos, HasId(videoId),
                                       (v: CroppedVideo) => Flip(v, now)))
  }

  /** Toggling twice restores every clip's favourite flag (an absent flag
      comes back as an explicit false) and keeps every other field except
      the modification time. */
  lemma ToggleFavoriteTwice(s: DiaryState, videoId: string, now1: int, now2: int)
    ensures var t := ToggleFavorite(ToggleFavorite(s, videoId, now1), videoId, now2);
            |t.croppedVideos| == |s.croppedVideos|
            && (forall i :: 0 <= i < |s.croppedVideos| ==> IsFavorite(t.croppedVideos[i]) == IsFavorite(s.croppedVideos[i]))
            && (forall i :: 0 <= i < |s.croppedVideos| && s.croppedVideos[i].id == videoId
                  ==> t.croppedVideos[i] == s.croppedVideos[i].(isFavorite := Some(IsFavorite(s.croppedVideos[i])), updatedAt := now2))
  {
  }

  /** A clip just added is what a lookup of its id finds. */
  lemma GetAfterAdd(s: DiaryState, video: CroppedVideo)
    ensures GetCroppedVideoById(AddCroppedVideo(s, video), video.id) == Some(video)
  {
    var t := AddCroppedVideo(s, video);
    assert t.croppedVideos[0] == video;
  }

  /** After removal no lookup of that id succeeds. */
  lemma GetAfterRemove(s: DiaryState, videoId: string)
    ensures GetCroppedVideoById(RemoveCroppedVideo(s, videoId), videoId).None?
  {
  }

  /** An update that leaves the id alone is seen by the next lookup: it
      finds the merged version of the clip it found before. */
  lemma GetAfterUpdate(s: DiaryState, videoId: string, updates: CroppedPatch, now: int)
    requires updates.id.None?
    ensures var before := GetCroppedVideoById(s, videoId);
            var after := GetCroppedVideoById(UpdateCroppedVideo(s, videoId, updates, now), videoId);
            (before.None? ==> after.None?)
            && (before.Some? ==> after == Some(Merge(before.value, updates, now)))
  {
    Lists.FindIndexAfterMapWhere(s.croppedVideos, HasId(videoId), (v: CroppedVideo) => Merge(v, updates, now));
  }

  /** `resetExportProgress`: back to progress 0, idle; nothing else changes. */
  function ResetExportProgress(s: DiaryState): (t: DiaryState)
    ensures t.exportProgress.progress == 0 && t.exportProgress.status == Idle
    ensures t.exportProgress.outputUri.None? && t.exportProgress.error.None?
    ensures t == s.(exportProgress := t.exportProgress)
  {
    s.(exportProgress := IdleProgress)
  }

  /** What is written to storage: the saved clips only. */
  datatype PersistedState = PersistedState(croppedVideos: seq<CroppedVideo>)

  /** `partialize`: keeps the clip list and nothing else. */
  function Partialize(s: DiaryState): (p: PersistedState)
    ensures p.croppedVideos == s.croppedVideos
  {
    PersistedState(s.croppedVideos)
  }

  /** The transient parts of the state never reach storage: changing the
      picked videos, the selections or the export progress leaves the
      persisted projection as it was. */
  lemma PersistedIgnoresTransientState(s: DiaryState, video: VideoItem, videoId: string,
                                       sv: Option<VideoItem>, sc: Option<CroppedVideo>, e: ExportProgress)
    ensures Partialize(AddVideo(s, video)) == Partialize(s)
    ensures Partialize(RemoveVideo(s, videoId)) == Partialize(s)
    ensures Partialize(ResetExportProgress(s)) == Partialize(s)
    ensures Partialize(s.(selectedVideo := sv, selectedCroppedVideo := sc, exportProgress := e)) == Partialize(s)
  {
  }
}

=== FILE: editor.dfy ===
/** The editor screen's decisions (app/editor.tsx): the playback status
    handler that loops back at the trim end, the effect that initialises
    the trim end, and the guards of the add-text and apply-filter dialogs.
    The player commands are returned rather than performed. */
module Editor {
  import opened Wrappers
  import opened Js
  import opened VideoTypes
  import ProjectStore

  /** The screen's local state (times in milliseconds). */
  datatype EditorState = EditorState(
    isPlaying: bool,
    currentTime: int,
    duration: int,
    trimStart: int,
    trimEnd: int,
    showTextModal: bool,
    showFilterModal: bool,
    textInput: string,
    selectedFilter: string)

  /** What the player reports. */
  datatype PlaybackStatus =
    | NotLoaded
    | Loaded(positionMillis: int, durationMillis: Option<int>, isPlaying: bool)

  /** The state after a status update and, when the position has reached
      the trim end, the position the player is paused and sent back to. */
  datatype StatusStep = StatusStep(state: EditorState, pauseAndSeekTo: Option<int>)

  /** `handlePlaybackStatusUpdate`. */
  function HandlePlaybackStatusUpdate(s: EditorState, status: PlaybackStatus): (r: StatusStep)
    ensures status.NotLoaded? ==> r == StatusStep(s, None)
    ensures status.Loaded? ==>
              r.state == s.(currentTime := status.positionMillis,
                            duration := status.durationMillis.GetOr(0),
                            isPlaying := status.isPlaying)
    ensures r.pauseAndSeekTo.Some? <==>
              status.Loaded? && s.trimEnd > 0 && status.positionMillis >= s.trimEnd
    ensures r.pauseAndSeekTo.Some? ==> r.pauseAndSeekTo.value == s.trimStart
  {
    match status
    case NotLoaded => StatusStep(s, None)
    case Loaded(position, duration, playing) =>
      var t := s.(currentTime := position, duration := duration.GetOr(0), isPlaying := playing);
      if s.trimEnd > 0 && position >= s.trimEnd then StatusStep(t, Some(s.trimStart))
      else StatusStep(t, None)
  }

  /** The trim-end effect: adopt the duration once it is known, unless a
      trim end is already set. */
  function InitTrimEnd(s: EditorState): (t: EditorState)
    ensures s.duration > 0 && s.trimEnd == 0 ==> t.trimEnd == s.duration
    ensures !(s.duration > 0 && s.trimEnd == 0) ==> t == s
    ensures t == s.(trimEnd := t.trimEnd)
  {
    if s.duration > 0 && s.trimEnd == 0 then s.(trimEnd := s.duration) else s
  }

  /** Running the effect again changes nothing. */
  lemma InitTrimEndIdempotent(s: EditorState)
    ensures InitTrimEnd(InitTrimEnd(s)) == InitTrimEnd(s)
  {
  }

  /** Once the first status with a known duration has set the trim end,
      any later status at or past the duration sends the player back to
      the trim start. */
  lemma LoopsBackAfterInit(s: EditorState, first: PlaybackStatus, later: PlaybackStatus)
    requires s.trimEnd == 0
    requires first.Loaded? && first.durationMillis.Some? && first.durationMillis.value > 0
    requires later.Loaded? && later.positionMillis >= first.durationMillis.value
    ensures var t := InitTrimEnd(HandlePlaybackStatusUpdate(s, first).state);
            HandlePlaybackStatusUpdate(t, later).pauseAndSeekTo == Some(s.trimStart)
  {
  }

  /** `handleAddText`: with some non-blank text, appends an overlay at the
      fixed position and style, stamped with the playback time, then clears
      the input and closes the dialog; with blank text nothing happens. The
      overlay id and the store's stamp are two readings of the clock. */
  function HandleAddText(s: EditorState, store: ProjectStore.ProjectState, clockForId: int, clockForStore: int)
    : (r: (EditorState, ProjectStore.ProjectState))
    ensures AllWhitespace(s.textInput) ==> r == (s, store)
    ensures !AllWhitespace(s.textInput) ==>
              r.0 == s.(textInput := "", showTextModal := false)
              && ProjectStore.EditedOnly(store, r.1, clockForStore)
              && (store.currentProject.Some? ==>
                    ProjectStore.Filters(r.1) == ProjectStore.Filters(store)
                    && ProjectStore.Overlays(r.1) == ProjectStore.Overlays(store)
                         + [TextOverlay(IntToString(clockForId), s.textInput, 50, 50, 24, "#FFFFFF", None, s.currentTime)])
  {
    if Trim(s.textInput) != "" then
      var overlay := TextOverlay(IntToString(clockForId), s.textInput, 50, 50, 24, "#FFFFFF", None, s.currentTime);
      (s.(textInput := "", showTextModal := false), ProjectStore.AddTextOverlay(store, overlay, clockForStore))
    else (s, store)
  }

  /** `handleApplyFilter`: with a filter chosen, appends it at full
      intensity and closes the dialog; with none chosen nothing happens. */
  function HandleApplyFilter(s: EditorState, store: ProjectStore.ProjectState, now: int)
    : (r: (EditorState, ProjectStore.ProjectState))
    ensures s.selectedFilter == "" ==> r == (s, store)
    ensures s.selectedFilter != "" ==>
              r.0 == s.(showFilterModal := false)
              && ProjectStore.EditedOnly(store, r.1, now)
              && (store.currentProject.Some? ==>
                    ProjectStore.Overlays(r.1) == ProjectStore.Overlays(store)
                    && ProjectStore.Filters(r.1) == ProjectStore.Filters(store) + [FilterEffect(s.selectedFilter, 1.0)])
  {
    if s.selectedFilter != "" then
      (s.(showFilterModal := false), ProjectStore.AddFilter(store, FilterEffect(s.selectedFilter, 1.0), now))
    else (s, store)
  }

  /** The overlay the add-text action appends is removed again by the id it
      was given, when that id is new to the project: the overlays and the
      filters are back as they were. */
  lemma AddTextThenRemove(s: EditorState, store: ProjectStore.ProjectState, clockForId: int, clockForStore: int, now: int)
    requires store.currentProject.Some? && !AllWhitespace(s.textInput)
    requires forall i :: 0 <= i < |ProjectStore.Overlays(store)| ==>
               ProjectStore.Overlays(store)[i].id != IntToString(clockForId)
    ensures var t := ProjectStore.RemoveTextOverlay(HandleAddText(s, store, clockForId, clockForStore).1,
                                                    IntToString(clockForId), now);
            ProjectStore.Overlays(t) == ProjectStore.Overlays(store)
            && ProjectStore.Filters(t) == ProjectStore.Filters(store)
  {
    var overlay := TextOverlay(IntToString(clockForId), s.textInput, 50, 50, 24, "#FFFFFF", None, s.currentTime);
    ProjectStore.AddThenRemoveTextOverlay(store, overlay, clockForStore, now);
  }

  /** The filter the apply action appends is the last one, and removing the
      last position gives back the filters and overlays of before. */
  lemma ApplyThenRemoveFilter(s: EditorState, store: ProjectStore.ProjectState, now1: int, now2: int)
    requires store.currentProject.Some? && s.selectedFilter != ""
    ensures var t := ProjectStore.RemoveFilter(HandleApplyFilter(s, store, now1).1,
                                               |ProjectStore.Filters(store)|, now2);
            ProjectStore.Filters(t) == ProjectStore.Filters(store)
            && ProjectStore.Overlays(t) == ProjectStore.Overlays(store)
  {
    ProjectStore.AddThenRemoveFilter(store, FilterEffect(s.selectedFilter, 1.0), now1, now2);
  }
}

=== FILE: errors.dfy ===
/** The app's error hierarchy (utils/errors.ts): a base `AppError` deriving
    from the built-in `Error`, and four subclasses. `instanceof` is modelled
    by walking the class chain. */
module Errors {
  import opened Wrappers

  datatype PermissionKind = Camera | MediaLibrary | Microphone
  datatype ProcessingOperation = CropOp | ThumbnailOp | SaveOp | ShareOp | ExportOp
  datatype FileOperation = ReadOp | WriteOp | DeleteOp | AccessOp

  /** An error object, by its most specific class. `BuiltinError` is an
      `Error` that does not come from this app. */
  datatype Error =
    | BuiltinError(message: string)
    | AppError(message: string)
    | VideoValidationError(message: string, videoUri: Option<string>,
                           actualDuration: Option<real>, maxDuration: Option<int>)
    | PermissionError(message: string, permissionType: PermissionKind)
    | VideoProcessingError(message: string, operation: ProcessingOperation, originalError: Option<Error>)
    | FileSystemError(message: string, fileOperation: FileOperation, filePath: Option<string>)

  /** Anything a `catch` can receive: an error object, or any other value. */
  datatype Thrown = Raised(error: Error) | NonErrorValue

  datatype ErrorClass =
    | ErrorBase | AppErrorClass | VideoValidationClass | PermissionClass | VideoProcessingClass | FileSystemClass

  function ClassOf(e: Error): ErrorClass {
    match e
    case BuiltinError(_) => ErrorBase
    case AppError(_) => AppErrorClass
    case VideoValidationError(_, _, _, _) => VideoValidationClass
    case PermissionError(_, _) => PermissionClass
    case VideoProcessingError(_, _, _) => VideoProcessingClass
    case FileSystemError(_, _, _) => FileSystemClass
  }

  /** The `extends` clause of each class. */
  function Parent(c: ErrorClass): Option<ErrorClass> {
    match c
    case ErrorBase => None
    case AppErrorClass => Some(ErrorBase)
    case _ => Some(AppErrorClass)
  }

  function Depth(c: ErrorClass): nat {
    match c
    case ErrorBase => 0
    case AppErrorClass => 1
    case _ => 2
  }

  /** Whether class `c` is `d` or inherits from it. */
  predicate Extends(c: ErrorClass, d: ErrorClass)
    decreases Depth(c)
  {
    c == d || (Parent(c).Some? && Depth(Parent(c).value) < Depth(c) && Extends(Parent(c).value, d))
  }

  /** `x instanceof d`. */
  predicate InstanceOf(x: Thrown, d: ErrorClass) {
    x.Raised? && Extends(ClassOf(x.error), d)
  }

  predicate IsAppError(x: Thrown) { InstanceOf(x, AppErrorClass) }
  predicate IsVideoValidationError(x: Thrown) { InstanceOf(x, VideoValidationClass) }
  predicate IsPermissionError(x: Thrown) { InstanceOf(x, PermissionClass) }
  predicate IsVideoProcessingError(x: Thrown) { InstanceOf(x, VideoProcessingClass) }
  predicate IsFileSystemError(x: Thrown) { InstanceOf(x, FileSystemClass) }

  function PermissionName(kind: PermissionKind): string {
    match kind
    case Camera => "camera"
    case MediaLibrary => "mediaLibrary"
    case Microphone => "microphone"
  }

  /** `new PermissionError(type, message?)`: an absent or empty message is
      replaced by "<type> permission is required". */
  function NewPermissionError(kind: PermissionKind, message: Option<string>): (e: Error)
    ensures e.PermissionError? && e.permissionType == kind
    ensures message.Some? && message.value != "" ==> e.message == message.value
    ensures message.None? || message.value == "" ==> e.message == PermissionName(kind) + " permission is required"
  {
    var text := if message.Some? && message.value != "" then message.value
                else PermissionName(kind) + " permission is required";
    PermissionError(text, kind)
  }

  /** `getUserErrorMessage`: the message of any error object, and a fixed
      sentence for anything else that was thrown. */
  function GetUserErrorMessage(x: Thrown): (m: string)
    ensures x.Raised? ==> m == x.error.message
    ensures !InstanceOf(x, ErrorBase) ==> m == "An unexpected error occurred"
  {
    if IsVideoValidationError(x) then x.error.message
    else if IsPermissionError(x) then x.error.message
    else if IsVideoProcessingError(x) then x.error.message
    else if IsFileSystemError(x) then x.error.message
    else if InstanceOf(x, ErrorBase) then x.error.message
    else "An unexpected error occurred"
  }

  /** Every error of the four subclasses is an `AppError`, and so is the base
      class itself; a built-in error and a non-error value are not. */
  lemma SubclassesAreAppErrors(x: Thrown)
    ensures (IsVideoValidationError(x) || IsPermissionError(x)
             || IsVideoProcessingError(x) || IsFileSystemError(x)) ==> IsAppError(x)
    ensures IsAppError(x) <==> x.Raised? && !x.error.BuiltinError?
  {
  }

  /** No value satisfies two of the four subclass guards. */
  lemma SubclassGuardsExclusive(x: Thrown)
    ensures IsVideoValidationError(x) ==> !IsPermissionError(x) && !IsVideoProcessingError(x) && !IsFileSystemError(x)
    ensures IsPermissionError(x) ==> !IsVideoProcessingError(x) && !IsFileSystemError(x)
    ensures IsVideoProcessingError(x) ==> !IsFileSystemError(x)
  {
  }
}

=== FILE: export_screen.dfy ===
/** The export screen (app/export.tsx): the simulated progress run of
    `handleExport` and the guards of the share and save buttons. The run is
    recorded as the sequence of screen effects it performs; the permission
    request's answer is a parameter. */
module ExportScreen {
  import opened Wrappers
  import opened VideoTypes

  /** What the permission request does. */
  datatype PermissionAnswer = Granted | NotGranted | Threw

  /** An effect of the export run, in the order it happens. */
  datatype ExportEffect =
    | SetExporting(on: bool)
    | SetProgress(progress: ExportProgress)
    | ShowAlert(title: string, message: string)

  function Processing(p: int): ExportProgress {
    ExportProgress(p, VideoTypes.Processing, None, None)
  }

  /** The progress values published, in order. */
  function Progresses(trace: seq<ExportEffect>): (r: seq<ExportProgress>)
    ensures |r| <= |trace|
  {
    if |trace| == 0 then []
    else (if trace[0].SetProgress? then [trace[0].progress] else []) + Progresses(trace[1..])
  }

  lemma {:induction false} ProgressesAppend(a: seq<ExportEffect>, b: seq<ExportEffect>)
    ensures Progresses(a + b) == Progresses(a) + Progresses(b)
    decreases |a|
  {
    if |a| > 0 {
      assert (a + b)[1..] == a[1..] + b;
      ProgressesAppend(a[1..], b);
    } else {
      assert a + b == b;
    }
  }

  /** The eleven ticks of the simulated run: 0, 10, ..., 100. */
  function Ticks(n: nat): (r: seq<ExportProgress>)
    ensures |r| == n
  {
    seq(n, k => Processing(10 * k))
  }

  /** The store's export progress once the run is over: completed at 100
      with the selected video's uri as output exactly when the permission
      was granted, and otherwise failed at 0 without output, with a message
      naming the cause. */
  function FinalProgress(video: VideoItem, permission: PermissionAnswer): (r: ExportProgress)
    ensures r.status == Completed <==> permission.Granted?
    ensures r.status == Completed ==> r.progress == 100 && r.outputUri == Some(video.uri) && r.error.None?
    ensures r.status != Completed ==> r.status == Failed && r.progress == 0 && r.outputUri.None?
    ensures permission.NotGranted? ==> r.error == Some("Permission denied")
    ensures permission.Threw? ==> r.error == Some("Export failed")
  {
    match permission
    case Granted => ExportProgress(100, Completed, Some(video.uri), None)
    case NotGranted => ExportProgress(0, Failed, None, Some("Permission denied"))
    case Threw => ExportProgress(0, Failed, None, Some("Export failed"))
  }

  /** Where the run's single alert sits in a trace of at least four effects
      whose last one clears the exporting mark: the completion alert right
      after the completed progress, the permission alert right before the
      failed progress, or the error alert right after it; no alert earlier. */
  predicate OneAlertBeforeClearing(trace: seq<ExportEffect>, final: ExportProgress, permission: PermissionAnswer) {
    var n := |trace|;
    n >= 4
    && (permission.Granted? ==>
          trace[n - 3] == SetProgress(final)
          && trace[n - 2] == ShowAlert("Export Completed", "Your video has been successfully exported!"))
    && (permission.NotGranted? ==>
          trace[n - 3] == ShowAlert("Permission Required", "Please grant media library permissions to save the video.")
          && trace[n - 2] == SetProgress(final))
    && (permission.Threw? ==>
          trace[n - 3] == SetProgress(final) && trace[n - 2] == ShowAlert("Error", "Failed to export video"))
    && (forall i :: 0 <= i < n - 3 ==> !trace[i].ShowAlert?)
  }

  /** `handleExport`. Without a selected video only an alert is shown. With
      one, the screen is marked exporting, the progress goes to 0 and then
      through 0, 10, ..., 100 while processing, and the permission answer
      decides the final progress; the exporting mark is cleared on every
      path. Exactly one alert is shown, just before the clearing: the
      completion alert after the completed progress, the permission alert
      before the failed one, or the error alert after it. */
  method HandleExport(selected: Option<VideoItem>, permission: PermissionAnswer) returns (trace: seq<ExportEffect>)
    ensures selected.None? ==> trace == [ShowAlert("Error", "No video selected")]
    ensures selected.Some? ==>
              |trace| >= 2 && trace[0] == SetExporting(true) && trace[|trace| - 1] == SetExporting(false)
              && (forall i :: 0 < i < |trace| - 1 ==> !trace[i].SetExporting?)
    ensures selected.Some? ==>
              Progresses(trace) == [Processing(0)] + Ticks(11) + [FinalProgress(selected.value, permission)]
    ensures selected.Some? ==> OneAlertBeforeClearing(trace, FinalProgress(selected.value, permission), permission)
  {
    if selected.None? {
      return [ShowAlert("Error", "No video selected")];
    }
    var video := selected.value;
    var body := [SetProgress(Processing(0))];
    ghost var start := body;
    assert Progresses(start) == [Processing(0)];
    var i := 0;
    while i <= 100
      invariant 0 <= i <= 110 && i % 10 == 0
      invariant forall k :: 0 <= k < |body| ==> body[k].SetProgress?
      invariant Progresses(body) == [Processing(0)] + Ticks(i / 10)
    {
      ProgressesAppend(body, [SetProgress(Processing(i))]);
      assert Ticks(i / 10) + [Processing(i)] == Ticks(i / 10 + 1);
      body := body + [SetProgress(Processing(i))];
      i := i + 10;
    }
    var ending;
    match permission {
      case NotGranted =>
        ending := [ShowAlert("Permission Required", "Please grant media library permissions to save the video."),
                   SetProgress(FinalProgress(video, permission))];
      case Granted =>
        ending := [SetProgress(FinalProgress(video, permission)),
                   ShowAlert("Export Completed", "Your video has been successfully exported!")];
      case Threw =>
        ending := [SetProgress(FinalProgress(video, permission)), ShowAlert("Error", "Failed to export video")];
    }
    assert i == 110;
    assert Progresses(ending) == [FinalProgress(video, permission)];
    Framed(body, ending);
    trace := [SetExporting(true)] + body + ending + [SetExporting(false)];
  }

  /** A run of progress updates and a two-effect ending, bracketed by the
      exporting mark: the mark is set first and cleared last only, the
      ending sits just before the clearing, no alert comes earlier, and
      the published progress is the run's followed by the ending's. */
  lemma Framed(body: seq<ExportEffect>, ending: seq<ExportEffect>)
    requires forall k :: 0 <= k < |body| ==> body[k].SetProgress?
    requires |ending| == 2 && !ending[0].SetExporting? && !ending[1].SetExporting?
    ensures var t := [SetExporting(true)] + body + ending + [SetExporting(false)];
            |t| == |body| + 4 && t[0] == SetExporting(true) && t[|t| - 1] == SetExporting(false)
            && (forall i :: 0 < i < |t| - 1 ==> !t[i].SetExporting?)
            && t[|t| - 3] == ending[0] && t[|t| - 2] == ending[1]
            && (forall i :: 0 <= i < |t| - 3 ==> !t[i].ShowAlert?)
            && Progresses(t) == Progresses(body) + Progresses(ending)
  {
    var t := [SetExporting(true)] + body + ending + [SetExporting(false)];
    assert forall i :: 1 <= i < |t| - 3 ==> t[i] == body[i - 1];
    assert Progresses([SetExporting(true)]) == [] && Progresses([SetExporting(false)]) == [];
    ProgressesAppend(body, ending);
    ProgressesAppend([SetExporting(true)], body + ending);
    assert [SetExporting(true)] + (body + ending) == [SetExporting(true)] + body + ending;
    ProgressesAppend([SetExporting(true)] + body + ending, [SetExporting(false)]);
  }

  /** The progress published while processing never goes down, stays in
      steps of 10 between 0 and 100, and is always reported as processing. */
  lemma TicksAreMonotone()
    ensures var ps := [Processing(0)] + Ticks(11);
            (forall i :: 0 <= i < |ps| ==> ps[i].status == VideoTypes.Processing
                                           && 0 <= ps[i].progress <= 100 && ps[i].progress % 10 == 0)
            && (forall i, j :: 0 <= i <= j < |ps| ==> ps[i].progress <= ps[j].progress)
  {
  }

  /** What pressing share or save does. */
  datatype Action = Alerted(message: string) | ShareFile(uri: string) | SaveToAlbum(uri: string, album: string)

  /** An output uri counts only when present and non-empty. */
  predicate HasOutput(p: ExportProgress) {
    p.outputUri.Some? && p.outputUri.value != ""
  }

  /** `handleShare`: without an exported file only an alert; otherwise the
      file is shared when the device supports sharing. */
  function HandleShare(p: ExportProgress, sharingAvailable: bool): (a: Action)
    ensures !HasOutput(p) ==> a == Alerted("No exported video to share")
    ensures HasOutput(p) && sharingAvailable ==> a == ShareFile(p.outputUri.value)
    ensures HasOutput(p) && !sharingAvailable ==> a == Alerted("Sharing is not available on this device")
    ensures a.ShareFile? ==> HasOutput(p) && sharingAvailable
  {
    if !HasOutput(p) then Alerted("No exported video to share")
    else if sharingAvailable then ShareFile(p.outputUri.value)
    else Alerted("Sharing is not available on this device")
  }

  /** `handleSaveToGallery`: without an exported file only an alert;
      otherwise the file goes into the 'VidCut' album. */
  function HandleSaveToGallery(p: ExportProgress): (a: Action)
    ensures !HasOutput(p) ==> a == Alerted("No exported video to save")
    ensures HasOutput(p) ==> a == SaveToAlbum(p.outputUri.value, "VidCut")
  {
    if !HasOutput(p) then Alerted("No exported video to save")
    else SaveToAlbum(p.outputUri.value, "VidCut")
  }

  /** After a successful export the share button shares the selected
      video's file; after a failed one it only alerts. */
  lemma ShareAfterExport(video: VideoItem, permission: PermissionAnswer)
    requires video.uri != ""
    ensures permission.Granted? ==> HandleShare(FinalProgress(video, permission), true) == ShareFile(video.uri)
    ensures !permission.Granted? ==> HandleShare(FinalProgress(video, permission), true)
                                     == Alerted("No exported video to share")
  {
  }

  /** Every progress the run publishes other than the completed one lacks
      an output, and so does the store's idle progress. */
  lemma OnlyCompletedHasOutput(video: VideoItem, permission: PermissionAnswer)
    ensures var ps := [IdleProgress, Processing(0)] + Ticks(11) + [FinalProgress(video, permission)];
            forall i :: 0 <= i < |ps| && ps[i].status != Completed ==> !HasOutput(ps[i])
  {
  }

  /** A button of the alert shown when an export completes. */
  datatype AlertButton = ShareButton | SaveButton

  /** The completion alert's buttons as written: their callbacks are the
      `handleShare` and `handleSaveToGallery` of the render that started the
      export, so they read the progress that render saw, `captured`, and not
      the one the export has just stored. */
  function AlertPressAsWritten(button: AlertButton, captured: ExportProgress, sharingAvailable: bool): (a: Action)
    ensures !HasOutput(captured) ==> a.Alerted?
    ensures a.ShareFile? ==> Some(a.uri) == captured.outputUri
    ensures a.SaveToAlbum? ==> Some(a.uri) == captured.outputUri
  {
    match button
    case ShareButton => HandleShare(captured, sharingAvailable)
    case SaveButton => HandleSaveToGallery(captured)
  }

  /** The export button is shown only while the progress is not completed,
      so the captured progress has no output and each alert button only
      reports that there is nothing to share or save, although the export
      has just stored the video's uri. */
  lemma AlertButtonsReadStaleProgress(video: VideoItem, captured: ExportProgress)
    requires video.uri != "" && !HasOutput(captured)
    ensures AlertPressAsWritten(ShareButton, captured, true) == Alerted("No exported video to share")
    ensures AlertPressAsWritten(SaveButton, captured, true) == Alerted("No exported video to save")
    ensures HasOutput(FinalProgress(video, Granted))
  {
  }

  /** The alert's buttons acting on the progress the successful export
      stored, as the completed-state buttons of the screen do. */
  function AlertPressCorrected(button: AlertButton, video: VideoItem, sharingAvailable: bool): (a: Action)
    ensures video.uri != "" && button.ShareButton? && sharingAvailable ==> a == ShareFile(video.uri)
    ensures video.uri != "" && button.SaveButton? ==> a == SaveToAlbum(video.uri, "VidCut")
    ensures button.ShareButton? && !sharingAvailable ==> a.Alerted?
  {
    var stored := FinalProgress(video, Granted);
    match button
    case ShareButton => HandleShare(stored, sharingAvailable)
    case SaveButton => HandleSaveToGallery(stored)
  }

  /** After a successful first export, the alert as written and as
      intended part ways on both buttons. */
  lemma FirstExportAlert(video: VideoItem)
    requires video.uri != ""
    ensures AlertPressAsWritten(ShareButton, IdleProgress, true) != AlertPressCorrected(ShareButton, video, true)
    ensures AlertPressAsWritten(SaveButton, IdleProgress, true) != AlertPressCorrected(SaveButton, video, true)
  {
  }
}

=== FILE: js.dfy ===
/** The JavaScript runtime behaviour the app's logic depends on: the
    remainder operator, number-to-string conversion, `padStart(2, "0")`,
    `String.prototype.trim` and the UTF-16 length that `.length` reports. */
module Js {

  /** JavaScript's `a % n` for a positive divisor: the remainder carries the
      sign of the dividend (Dafny's own `%` is never negative). */
  function Rem(a: int, n: int): (r: int)
    requires n > 0
    ensures -n < r < n
    ensures a >= 0 ==> r == a % n
    ensures a <= 0 ==> r <= 0
  {
    if a >= 0 then a % n else -((-a) % n)
  }

  // ---------------------------------------------------------------------
  // Decimal digits

  predicate IsDigit(c: char) {
    '0' <= c <= '9'
  }

  predicate AllDigits(s: string) {
    forall i :: 0 <= i < |s| ==> IsDigit(s[i])
  }

  /** The character of decimal digit `d`. */
  function Digit(d: int): (c: char)
    requires 0 <= d < 10
    ensures IsDigit(c)
  {
    (48 + d) as char
  }

  /** The numeric value of a digit character (0 for anything else). */
  function DigitValue(c: char): (d: nat)
    ensures d < 10
  {
    if IsDigit(c) then c as int - 48 else 0
  }

  /** Reads a string of decimal digits back as a number; the partner of
      `NatToString` and of the two-digit fields of the clock formatters. */
  function ParseNat(s: string): nat {
    if |s| == 0 then 0 else ParseNat(s[..|s| - 1]) * 10 + DigitValue(s[|s| - 1])
  }

  /** `String(n)` for a non-negative integer: its shortest decimal digits. */
  function NatToString(n: nat): (r: string)
    ensures |r| >= 1 && AllDigits(r)
    ensures ParseNat(r) == n
    ensures r[0] == '0' <==> n == 0
    ensures r[0] == '0' ==> |r| == 1
  {
    if n < 10 then [Digit(n)]
    else
      var r := NatToString(n / 10) + [Digit(n % 10)];
      assert r[..|r| - 1] == NatToString(n / 10);
      r
  }

  /** `String(i)` for any integer: a minus sign before the digits of a negative. */
  function IntToString(i: int): (r: string)
    ensures |r| >= 1
    ensures i >= 0 ==> AllDigits(r) && ParseNat(r) == i
    ensures i < 0 ==> r[0] == '-' && AllDigits(r[1..]) && ParseNat(r[1..]) == -i
  {
    if i < 0 then "-" + NatToString(-i) else NatToString(i)
  }

  /** `s.padStart(2, "0")`: prefixes zeros until the string is two long. */
  function PadStart2(s: string): (r: string)
    ensures |r| == if |s| >= 2 then |s| else 2
    ensures r[|r| - |s|..] == s
    ensures forall i :: 0 <= i < |r| - |s| ==> r[i] == '0'
  {
    if |s| >= 2 then s else if |s| == 1 then ['0'] + s else "00"
  }

  lemma {:induction false} ParseNatLeadingZero(s: string)
    ensures ParseNat(['0'] + s) == ParseNat(s)
    decreases |s|
  {
    if |s| > 0 {
      var t := ['0'] + s;
      assert t[..|t| - 1] == ['0'] + s[..|s| - 1];
      ParseNatLeadingZero(s[..|s| - 1]);
    }
  }

  /** The zero-padded two-digit form of a value below 100 is two digits
      that read back as the value. */
  lemma TwoDigits(n: nat)
    requires n < 100
    ensures |PadStart2(NatToString(n))| == 2
    ensures AllDigits(PadStart2(NatToString(n)))
    ensures ParseNat(PadStart2(NatToString(n))) == n
  {
    var s := NatToString(n);
    if n < 10 {
      assert s == [Digit(n)];
      ParseNatLeadingZero(s);
    } else {
      assert NatToString(n / 10) == [Digit(n / 10)];
      assert s == NatToString(n / 10) + [Digit(n % 10)];
    }
  }

  // ---------------------------------------------------------------------
  // Whitespace and trim

  /** The characters `String.prototype.trim` removes: the WhiteSpace and
      LineTerminator code points of section 12.2 and 12.3 of ECMA-262. */
  predicate IsWhitespace(c: char) {
    var k := c as int;
    k == 0x09 || k == 0x0A || k == 0x0B || k == 0x0C || k == 0x0D || k == 0x20
    || k == 0xA0 || k == 0x1680 || (0x2000 <= k <= 0x200A)
    || k == 0x2028 || k == 0x2029 || k == 0x202F || k == 0x205F
    || k == 0x3000 || k == 0xFEFF
  }

  predicate AllWhitespace(s: string) {
    forall i :: 0 <= i < |s| ==> IsWhitespace(s[i])
  }

  /** Drops the leading whitespace of `s`. */
  function TrimStart(s: string): (r: string)
    ensures |r| <= |s| && r == s[|s| - |r|..]
    ensures forall i :: 0 <= i < |s| - |r| ==> IsWhitespace(s[i])
    ensures |r| > 0 ==> !IsWhitespace(r[0])
  {
    if |s| > 0 && IsWhitespace(s[0]) then TrimStart(s[1..]) else s
  }

  /** Drops the trailing whitespace of `s`. */
  function TrimEnd(s: string): (r: string)
    ensures |r| <= |s| && r == s[..|r|]
    ensures forall i :: |r| <= i < |s| ==> IsWhitespace(s[i])
    ensures |r| > 0 ==> !IsWhitespace(r[|r| - 1])
  {
    if |s| > 0 && IsWhitespace(s[|s| - 1]) then TrimEnd(s[..|s| - 1]) else s
  }

  /** `s` is `r` with only whitespace before it, up to position `a`, and
      only whitespace after it. */
  predicate PaddedAt(s: string, a: int, r: string) {
    0 <= a <= |s| - |r| && s[a..a + |r|] == r && AllWhitespace(s[..a]) && AllWhitespace(s[a + |r|..])
  }

  /** `s.trim()`: the longest infix of `s` that neither starts nor ends with
      whitespace, once every whitespace character around it is dropped. */
  function Trim(s: string): (r: string)
    ensures |r| <= |s|
    ensures |r| > 0 ==> !IsWhitespace(r[0]) && !IsWhitespace(r[|r| - 1])
    ensures |r| == 0 <==> AllWhitespace(s)
    ensures exists a :: PaddedAt(s, a, r)
  {
    var t := TrimStart(s);
    var r := TrimEnd(t);
    DroppedFrontIsWhitespace(s);
    DroppedBackIsWhitespace(t);
    PaddedFromParts(s, t, r);
    r
  }

  /** Whitespace dropped from the front, then a remainder `t` from which
      whitespace is dropped at the back, leave `r` padded inside `s`. */
  lemma PaddedFromParts(s: string, t: string, r: string)
    requires |t| <= |s| && t == s[|s| - |t|..] && AllWhitespace(s[..|s| - |t|])
    requires |r| <= |t| && r == t[..|r|] && AllWhitespace(t[|r|..])
    ensures PaddedAt(s, |s| - |t|, r)
  {
    var a := |s| - |t|;
    assert s[a..a + |r|] == t[..|r|];
    assert s[a + |r|..] == t[|r|..];
  }

  lemma DroppedFrontIsWhitespace(s: string)
    ensures AllWhitespace(s[..|s| - |TrimStart(s)|])
  {
    var a := |s| - |TrimStart(s)|;
    assert forall i :: 0 <= i < a ==> s[..a][i] == s[i];
  }

  lemma DroppedBackIsWhitespace(t: string)
    ensures AllWhitespace(t[|TrimEnd(t)|..])
  {
    var n := |TrimEnd(t)|;
    assert forall j :: 0 <= j < |t| - n ==> t[n..][j] == t[n + j];
  }

  /** A trimmed string is its own trim. */
  lemma TrimIdempotent(s: string)
    ensures Trim(Trim(s)) == Trim(s)
  {
  }

  /** `s.length`: the number of UTF-16 code units, where a character outside
      the Basic Multilingual Plane takes two. */
  function Utf16Length(s: string): (n: nat)
    ensures |s| <= n <= 2 * |s|
    ensures (forall i :: 0 <= i < |s| ==> s[i] as int <= 0xFFFF) ==> n == |s|
  {
    if |s| == 0 then 0
    else Utf16Length(s[..|s| - 1]) + (if s[|s| - 1] as int > 0xFFFF then 2 else 1)
  }
}

=== FILE: legacy_video_utils.dfy ===
/** The older media helpers of utils/videoUtils.ts. Their formatter and
    quality table are copies of the ones in utils/video-utils.ts; their
    pickers apply no duration limit. */
module LegacyVideoUtils {
  import opened Wrappers
  import opened Js
  import opened VideoTypes
  import VideoUtils

  /** `formatDuration`, as written in this file. The copy agrees with the
      current formatter on every input, so it too keeps minutes and seconds
      below 60, pads them from one hour on, and reads back as the whole
      seconds. */
  function LegacyFormatDuration(milliseconds: real): (shown: string)
    ensures shown == VideoUtils.FormatDuration(milliseconds)
  {
    var totalSeconds := (milliseconds / 1000.0).Floor;
    var hours := totalSeconds / 3600;
    var minutes := Rem(totalSeconds, 3600) / 60;
    var seconds := Rem(totalSeconds, 60);
    if hours > 0 then
      IntToString(hours) + ":" + PadStart2(IntToString(minutes)) + ":" + PadStart2(IntToString(seconds))
    else
      IntToString(minutes) + ":" + PadStart2(IntToString(seconds))
  }

  /** `getQualitySettings`, as written in this file. */
  function LegacyQualitySettings(quality: string): (q: Option<VideoUtils.Quality>)
    ensures q.None? <==> quality == "original"
  {
    match quality
    case "low" => Some(VideoUtils.Quality(640, 480, 500000))
    case "medium" => Some(VideoUtils.Quality(1280, 720, 2000000))
    case "high" => Some(VideoUtils.Quality(1920, 1080, 5000000))
    case "original" => None
    case _ => Some(VideoUtils.Quality(1280, 720, 2000000))
  }

  /** The two quality tables are the same table. */
  lemma QualityTablesAgree(quality: string)
    ensures LegacyQualitySettings(quality) == VideoUtils.QualitySettings(quality)
  {
  }

  /** `pickVideoFromGallery` and `recordVideo` of this file: the first
      asset is always accepted, whatever its length. */
  function LegacyPickVideo(outcome: VideoUtils.PickerOutcome, thumbnail: Option<string>, clockForId: int, clockForName: int)
    : (r: Option<VideoItem>)
    ensures r.None? <==> !(outcome.Chosen? && |outcome.assets| > 0)
    ensures r.Some? ==> r.value.error.None? && r.value.uri == outcome.assets[0].uri
                        && r.value.duration == outcome.assets[0].duration.GetOr(0)
  {
    if outcome.Chosen? && |outcome.assets| > 0 then
      Some(ItemFromAsset(outcome.assets[0], thumbnail, clockForId, clockForName))
    else None
  }

  /** The two pickers differ only above the two-minute limit: within it
      they return the same item, beyond it the current one returns the
      rejection sentinel and the legacy one the video. */
  lemma PickersDifferOnlyAboveLimit(asset: VideoTypes.PickedAsset, thumbnail: Option<string>, clockForId: int, clockForName: int)
    ensures var outcome := VideoUtils.Chosen([asset]);
            var current := VideoUtils.PickVideo(outcome, thumbnail, clockForId, clockForName);
            var legacy := LegacyPickVideo(outcome, thumbnail, clockForId, clockForName);
            (current == legacy <==> asset.duration.GetOr(0) <= 120000)
  {
  }
}

=== FILE: lists.dfy ===
/** The array operations the two stores are built from: `filter`, `map`
    with a per-element condition, `find`, and the index-based `filter` and
    `map` of the project editor. Each is defined by recursion over the
    sequence and specified pointwise. */
module Lists {
  import opened Wrappers

  /** `xs.filter(keep)`: the kept elements, in their original order. */
  function Filter<T>(xs: seq<T>, keep: T -> bool): (r: seq<T>)
    ensures |r| <= |xs|
    ensures forall i :: 0 <= i < |r| ==> r[i] in xs && keep(r[i])
    ensures forall i :: 0 <= i < |xs| && keep(xs[i]) ==> xs[i] in r
    ensures (forall i :: 0 <= i < |xs| ==> keep(xs[i])) ==> r == xs
  {
    if |xs| == 0 then []
    else
      var rest := Filter(xs[1..], keep);
      assert xs == [xs[0]] + xs[1..];
      if keep(xs[0]) then [xs[0]] + rest else rest
  }

  /** A single element is kept or dropped by its own test. */
  lemma FilterOne<T>(x: T, keep: T -> bool)
    ensures Filter([x], keep) == if keep(x) then [x] else []
  {
    assert [x][1..] == [];
  }

  /** Filtering distributes over concatenation, so the relative order of
      the kept elements is the order they had in the input. */
  lemma {:induction false} FilterAppend<T>(xs: seq<T>, ys: seq<T>, keep: T -> bool)
    ensures Filter(xs + ys, keep) == Filter(xs, keep) + Filter(ys, keep)
    decreases |xs|
  {
    if |xs| > 0 {
      assert (xs + ys)[1..] == xs[1..] + ys;
      FilterAppend(xs[1..], ys, keep);
    } else {
      assert xs + ys == ys;
    }
  }

  /** `xs.map(x => hit(x) ? f(x) : x)`: the elements that satisfy `hit` are
      replaced by their image, every other element stays where it was. */
  function MapWhere<T>(xs: seq<T>, hit: T -> bool, f: T -> T): (r: seq<T>)
    ensures |r| == |xs|
    ensures forall i :: 0 <= i < |xs| && hit(xs[i]) ==> r[i] == f(xs[i])
    ensures forall i :: 0 <= i < |xs| && !hit(xs[i]) ==> r[i] == xs[i]
  {
    if |xs| == 0 then []
    else [if hit(xs[0]) then f(xs[0]) else xs[0]] + MapWhere(xs[1..], hit, f)
  }

  /** The position `xs.findIndex(hit)` reports: the first element that
      satisfies `hit`, or none when no element does. */
  function FindIndex<T>(xs: seq<T>, hit: T -> bool): (r: Option<nat>)
    ensures r.None? <==> forall i :: 0 <= i < |xs| ==> !hit(xs[i])
    ensures r.Some? ==> r.value < |xs| && hit(xs[r.value])
                        && forall j :: 0 <= j < r.value ==> !hit(xs[j])
  {
    if |xs| == 0 then None
    else if hit(xs[0]) then Some(0)
    else
      match FindIndex(xs[1..], hit)
      case None => None
      case Some(k) => Some(k + 1)
  }

  /** Rewriting the matching elements into elements that still match does
      not move the first match. */
  lemma {:induction false} FindIndexAfterMapWhere<T>(xs: seq<T>, hit: T -> bool, f: T -> T)
    requires forall x :: hit(x) ==> hit(f(x))
    ensures FindIndex(MapWhere(xs, hit, f), hit) == FindIndex(xs, hit)
    decreases |xs|
  {
    if |xs| > 0 {
      var ys := MapWhere(xs, hit, f);
      assert ys[1..] == MapWhere(xs[1..], hit, f);
      assert hit(ys[0]) == hit(xs[0]) by {
        if hit(xs[0]) {
          assert ys[0] == f(xs[0]) && hit(f(xs[0]));
        } else {
          assert ys[0] == xs[0];
        }
      }
      FindIndexAfterMapWhere(xs[1..], hit, f);
    }
  }

  /** `xs.filter((_, j) => j !== i)`: drops the element at position `i`
      when there is one, and changes nothing otherwise. */
  function DropIndex<T>(xs: seq<T>, i: int): (r: seq<T>)
    ensures 0 <= i < |xs| ==> r == xs[..i] + xs[i + 1..]
    ensures !(0 <= i < |xs|) ==> r == xs
  {
    if |xs| == 0 then []
    else if i == 0 then xs[1..]
    else
      var rest := DropIndex(xs[1..], i - 1);
      assert xs == [xs[0]] + xs[1..];
      [xs[0]] + rest
  }

  /** `xs.map((x, j) => j === i ? v : x)`: replaces the element at position
      `i` when there is one, and changes nothing otherwise. */
  function ReplaceAt<T>(xs: seq<T>, i: int, v: T): (r: seq<T>)
    ensures |r| == |xs|
    ensures 0 <= i < |xs| ==> r[i] == v
    ensures forall j :: 0 <= j < |xs| && j != i ==> r[j] == xs[j]
  {
    if |xs| == 0 then []
    else if i == 0 then [v] + xs[1..]
    else [xs[0]] + ReplaceAt(xs[1..], i - 1, v)
  }
}

=== FILE: metadata_modal.dfy ===
/** The save dialog shown after cropping (components/metadata-modal.tsx):
    the preview's content fit and container size, the duration badge and
    the rule that disables the Save button. An absent aspect ratio is the
    prop's default, 'original'. */
module MetadataModal {
  import opened Wrappers
  import opened Js
  import opened VideoTypes
  import VideoUtils
  import VideoService
  import Scrubber
  import AppConstants
  import Clock

  datatype ContentFit = Contain | Cover

  function RatioOrDefault(aspectRatio: Option<AspectRatio>): AspectRatio {
    aspectRatio.GetOr(Original)
  }

  /** `getContentFit`: letterboxed exactly for the original ratio. */
  function ModalContentFit(aspectRatio: Option<AspectRatio>): (f: ContentFit)
    ensures f == Contain <==> aspectRatio.None? || aspectRatio.value == Original
  {
    if RatioOrDefault(aspectRatio) == Original then Contain else Cover
  }

  /** The preview container: a fixed box, or the full width at a fixed height. */
  datatype Container = Box(width: real, height: real) | FullWidth(height: real)

  function MinReal(a: real, b: real): real { if a <= b then a else b }

  /** `getVideoContainerStyle`: for 9:16 a box half the screen wide, at
      most 200, with portrait proportions; otherwise full width, 240 high. */
  function ContainerStyle(aspectRatio: Option<AspectRatio>, screenWidth: real): (c: Container)
    ensures RatioOrDefault(aspectRatio) == Portrait9x16 ==>
              c.Box? && c.width <= 200.0 && c.width <= screenWidth * 0.5
              && (c.width == 200.0 || c.width == screenWidth * 0.5)
              && 9.0 * c.height == 16.0 * c.width
    ensures RatioOrDefault(aspectRatio) == Original ==> c == FullWidth(240.0)
  {
    if RatioOrDefault(aspectRatio) == Portrait9x16 then
      var width := MinReal(screenWidth * 0.5, 200.0);
      Box(width, (width * 16.0) / 9.0)
    else FullWidth(240.0)
  }

  /** Save is disabled while saving and while the title or the description
      is blank. */
  function SaveDisabled(isSaving: bool, videoName: string, videoDescription: string): (disabled: bool)
    ensures disabled <==> isSaving || AllWhitespace(videoName) || AllWhitespace(videoDescription)
  {
    isSaving || Trim(videoName) == "" || Trim(videoDescription) == ""
  }

  /** When not saving, Save is enabled exactly when the service's metadata
      check would accept the fields. */
  lemma SaveEnabledMatchesService(videoName: string, videoDescription: string)
    ensures !SaveDisabled(false, videoName, videoDescription)
            <==> VideoService.ValidateVideoMetadata(videoName, videoDescription).Pass?
  {
  }

  /** The duration badge: the trim window's length as a duration label. */
  function DurationBadge(trimStart: real, trimEnd: real): (badge: string)
    ensures trimEnd - trimStart >= 0.0 ==>
              Clock.ParseClock(badge) == ((trimEnd - trimStart) / 1000.0).Floor
  {
    VideoUtils.FormatDuration(trimEnd - trimStart)
  }

  /** A window taken from the scrubber is badged "0:05". */
  lemma ScrubberWindowBadge(scrollPosition: real, duration: int)
    ensures var u := Scrubber.UpdateTrimFromScroll(scrollPosition, duration, AppConstants.CROP_DURATION_MS);
            DurationBadge(u.startTime, u.endTime) == "0:05"
  {
    var u := Scrubber.UpdateTrimFromScroll(scrollPosition, duration, AppConstants.CROP_DURATION_MS);
    assert u.endTime - u.startTime == 5000.0;
    FiveSecondBadge();
  }

  lemma FiveSecondBadge()
    ensures VideoUtils.FormatDuration(5000.0) == "0:05"
  {
    VideoUtils.ShortForm(5000.0);
    assert NatToString(0) == "0";
    assert NatToString(5) == "5";
  }

  /** Any crop the service accepts is badged "0:04" or "0:05": the
      tolerance allows 4.9 to 5.1 seconds and the badge shows whole seconds. */
  lemma AcceptedCropBadge(startTime: real, endTime: real, videoDuration: real)
    requires VideoService.ValidateCropParameters(startTime, endTime, videoDuration).Pass?
    ensures DurationBadge(startTime, endTime) in {"0:04", "0:05"}
  {
    var len := endTime - startTime;
    assert 4900.0 <= len <= 5100.0;
    var total := VideoUtils.WholeSeconds(len);
    assert total == 4 || total == 5;
    VideoUtils.FormatDurationTruncates(len);
    if total == 4 {
      FourSecondBadge();
    } else {
      FiveSecondBadge();
    }
  }

  lemma FourSecondBadge()
    ensures VideoUtils.FormatDuration(4000.0) == "0:04"
  {
    VideoUtils.ShortForm(4000.0);
    assert NatToString(0) == "0";
    assert NatToString(4) == "4";
  }
}

=== FILE: metadata_schema.dfy ===
/** The clip metadata schema of utils/validation.ts. The schema trims each
    field and then applies its length checks in order; every failing check
    raises an issue, and `validateVideoMetadata` keeps the first issue of
    each field. Lengths are JavaScript string lengths (UTF-16 code units). */
module MetadataSchema {
  import opened Wrappers
  import opened Js
  import VideoService

  /** A length check of the schema with the message its issue carries. */
  datatype LengthCheck = MinLength(bound: nat, message: string) | MaxLength(bound: nat, message: string)

  predicate Passes(c: LengthCheck, length: nat) {
    match c
    case MinLength(n, _) => length >= n
    case MaxLength(n, _) => length <= n
  }

  const NameChecks: seq<LengthCheck> := [
    MinLength(1, "Title is required"),
    MinLength(3, "Title must be at least 3 characters"),
    MaxLength(100, "Title must be less than 100 characters")]

  const DescriptionChecks: seq<LengthCheck> := [
    MinLength(1, "Description is required"),
    MinLength(10, "Description must be at least 10 characters"),
    MaxLength(500, "Description must be less than 500 characters")]

  /** The message of the first check that fails, if any does. */
  function FirstFailure(checks: seq<LengthCheck>, length: nat): (r: Option<string>)
    ensures r.None? <==> forall i :: 0 <= i < |checks| ==> Passes(checks[i], length)
    ensures r.Some? ==> exists i :: 0 <= i < |checks| && !Passes(checks[i], length)
                          && r.value == checks[i].message
                          && forall j :: 0 <= j < i ==> Passes(checks[j], length)
  {
    if |checks| == 0 then None
    else if !Passes(checks[0], length) then Some(checks[0].message)
    else
      var r := FirstFailure(checks[1..], length);
      if r.Some? then
        var i :| 0 <= i < |checks| - 1 && !Passes(checks[1..][i], length)
                 && r.value == checks[1..][i].message
                 && forall j :: 0 <= j < i ==> Passes(checks[1..][j], length);
        assert !Passes(checks[i + 1], length) && r.value == checks[i + 1].message;
        r
      else r
  }

  /** The value supplied for one field of the input object. */
  datatype FieldValue = Missing | Text(text: string) | NotText(received: string)

  /** The first issue the schema raises for one field. */
  function FieldIssue(v: FieldValue, checks: seq<LengthCheck>): (r: Option<string>)
    ensures v.Missing? ==> r == Some("Required")
    ensures v.NotText? ==> r == Some("Expected string, received " + v.received)
    ensures v.Text? ==> (r.None? <==> forall i :: 0 <= i < |checks| ==> Passes(checks[i], Utf16Length(Trim(v.text))))
  {
    match v
    case Missing => Some("Required")
    case NotText(received) => Some("Expected string, received " + received)
    case Text(s) => FirstFailure(checks, Utf16Length(Trim(s)))
  }

  /** The input handed to the schema. */
  datatype RawInput = NotAnObject | Fields(name: FieldValue, description: FieldValue)

  /** The result of `validateVideoMetadata`: the trimmed data, or the first
      message per failing field. */
  datatype Outcome =
    | Valid(name: string, description: string)
    | Invalid(nameError: Option<string>, descriptionError: Option<string>)

  /** `validateVideoMetadata`: success exactly when both fields pass; then
      the data are the trimmed strings. On failure each field's message
      depends on that field alone, and input that is not an object raises
      an issue with no field, so no field message is reported. */
  function ValidateVideoMetadata(input: RawInput): (r: Outcome)
    ensures input.NotAnObject? ==> r == Invalid(None, None)
    ensures input.Fields? ==>
              (r.Valid? <==> FieldIssue(input.name, NameChecks).None?
                             && FieldIssue(input.description, DescriptionChecks).None?)
    ensures r.Valid? ==> input.Fields? && input.name.Text? && input.description.Text?
                         && r.name == Trim(input.name.text) && r.description == Trim(input.description.text)
    ensures r.Invalid? && input.Fields? ==>
              r.nameError == FieldIssue(input.name, NameChecks)
              && r.descriptionError == FieldIssue(input.description, DescriptionChecks)
  {
    match input
    case NotAnObject => Invalid(None, None)
    case Fields(name, description) =>
      var nameIssue := FieldIssue(name, NameChecks);
      var descriptionIssue := FieldIssue(description, DescriptionChecks);
      if nameIssue.None? && descriptionIssue.None? then
        Valid(Trim(name.text), Trim(description.text))
      else Invalid(nameIssue, descriptionIssue)
  }

  /** The first failure among three checks, spelled out. */
  lemma ThreeChecks(checks: seq<LengthCheck>, length: nat)
    requires |checks| == 3
    ensures FirstFailure(checks, length)
            == if !Passes(checks[0], length) then Some(checks[0].message)
               else if !Passes(checks[1], length) then Some(checks[1].message)
               else if !Passes(checks[2], length) then Some(checks[2].message)
               else None
  {
    assert checks[1..][0] == checks[1];
    assert checks[1..][1..][0] == checks[2];
    assert |checks[1..][1..][1..]| == 0;
  }

  /** The first issue of a title whose trimmed length is `n`. */
  lemma NameIssue(name: string)
    ensures var n := Utf16Length(Trim(name));
            FieldIssue(Text(name), NameChecks)
            == if n < 1 then Some("Title is required")
               else if n < 3 then Some("Title must be at least 3 characters")
               else if n > 100 then Some("Title must be less than 100 characters")
               else None
  {
    ThreeChecks(NameChecks, Utf16Length(Trim(name)));
  }

  /** The first issue of a description whose trimmed length is `n`. */
  lemma DescriptionIssue(description: string)
    ensures var n := Utf16Length(Trim(description));
            FieldIssue(Text(description), DescriptionChecks)
            == if n < 1 then Some("Description is required")
               else if n < 10 then Some("Description must be at least 10 characters")
               else if n > 500 then Some("Description must be less than 500 characters")
               else None
  {
    ThreeChecks(DescriptionChecks, Utf16Length(Trim(description)));
  }

  /** A title is accepted exactly when its trimmed length is 3 to 100. */
  lemma NameRule(name: string)
    ensures FieldIssue(Text(name), NameChecks).None? <==> 3 <= Utf16Length(Trim(name)) <= 100
  {
    NameIssue(name);
  }

  /** A description is accepted exactly when its trimmed length is 10 to 500. */
  lemma DescriptionRule(description: string)
    ensures FieldIssue(Text(description), DescriptionChecks).None?
            <==> 10 <= Utf16Length(Trim(description)) <= 500
  {
    DescriptionIssue(description);
  }

  /** A blank title reports that a title is required, not that it is too
      short, though both checks fail. */
  lemma BlankNameMessage(name: string)
    requires AllWhitespace(name)
    ensures FieldIssue(Text(name), NameChecks) == Some("Title is required")
  {
    NameIssue(name);
  }

  /** A title of one or two characters reports the three-character minimum. */
  lemma ShortNameMessage(name: string)
    requires 1 <= Utf16Length(Trim(name)) < 3
    ensures FieldIssue(Text(name), NameChecks) == Some("Title must be at least 3 characters")
  {
    NameIssue(name);
  }

  /** Metadata the schema accepts (both fields free of issues, which is
      when `validateVideoMetadata` succeeds) also passes the service's
      presence check. */
  lemma SchemaStricterThanService(name: string, description: string)
    requires FieldIssue(Text(name), NameChecks).None? && FieldIssue(Text(description), DescriptionChecks).None?
    ensures VideoService.ValidateVideoMetadata(name, description) == VideoService.Pass
  {
    NameRule(name);
    DescriptionRule(description);
  }
}

=== FILE: onboarding.dfy ===
/** The onboarding pager (app/onboarding.tsx): three slides, a Next button
    that becomes Get Started on the last slide, a Skip button, pagination
    dots and the page index read off the scroll offset. Finishing always
    routes to the tabs, whether or not the seen-onboarding flag could be
    stored. */
module Onboarding {

  const SlideCount: nat := 3
  const LastSlide: nat := SlideCount - 1

  /** What pressing Next does. */
  datatype NextStep = GoTo(index: int) | Finish

  /** `handleNext`: advance by one before the last slide, finish on it. */
  function HandleNext(currentIndex: int): (r: NextStep)
    ensures currentIndex < LastSlide ==> r == GoTo(currentIndex + 1)
    ensures currentIndex >= LastSlide ==> r == Finish
  {
    if currentIndex < SlideCount - 1 then GoTo(currentIndex + 1) else Finish
  }

  /** An effect of finishing the onboarding. */
  datatype FinishEffect = StoreFlag(key: string, value: string) | LogError(message: string) | ReplaceRoute(route: string)

  /** `handleGetStarted`: tries to store the seen-onboarding flag, logs the
      failure when storing throws, and replaces the route with the tabs on
      both paths. */
  function HandleGetStarted(flagStored: bool): (effects: seq<FinishEffect>)
    ensures |effects| == (if flagStored then 2 else 3) && effects[0] == StoreFlag("hasSeenOnboarding", "true")
    ensures effects[|effects| - 1] == ReplaceRoute("/(tabs)")
    ensures forall i :: 0 <= i < |effects| - 1 ==> !effects[i].ReplaceRoute?
    ensures (exists i :: 0 <= i < |effects| && effects[i].LogError?) <==> !flagStored
  {
    if flagStored then [StoreFlag("hasSeenOnboarding", "true"), ReplaceRoute("/(tabs)")]
    else
      var effects := [StoreFlag("hasSeenOnboarding", "true"), LogError("Error saving onboarding status:"),
                      ReplaceRoute("/(tabs)")];
      assert effects[1].LogError?;
      effects
  }

  /** The Skip button shows on every slide but the last. */
  function SkipVisible(currentIndex: int): (visible: bool)
    ensures visible <==> currentIndex < LastSlide
  {
    currentIndex < SlideCount - 1
  }

  /** The main button's label. */
  function ButtonLabel(currentIndex: int): (caption: string)
    ensures caption == "Get Started" <==> currentIndex == LastSlide
    ensures caption != "Get Started" ==> caption == "Next"
  {
    if currentIndex == SlideCount - 1 then "Get Started" else "Next"
  }

  /** Whether pagination dot `dot` is the highlighted one. */
  predicate DotHighlighted(dot: nat, currentIndex: int) {
    dot == currentIndex
  }

  /** The dots drawn highlighted: exactly the current slide's dot while the
      index names a slide, and none while an overscroll has pushed it past
      either end. */
  function HighlightedDots(currentIndex: int): (dots: set<nat>)
    ensures 0 <= currentIndex <= LastSlide ==> dots == {currentIndex as nat}
    ensures !(0 <= currentIndex <= LastSlide) ==> dots == {}
  {
    var dots := set dot: nat | dot < SlideCount && DotHighlighted(dot, currentIndex);
    assert 0 <= currentIndex <= LastSlide ==> currentIndex as nat in dots;
    dots
  }

  /** `Math.round`: the nearest integer, halves rounded up. */
  function Round(x: real): (n: int)
    ensures n as real - 0.5 <= x < n as real + 0.5
  {
    (x + 0.5).Floor
  }

  /** The page index the scroll handler derives from the content offset. */
  function IndexFromScroll(offsetX: real, screenWidth: real): (i: int)
    requires screenWidth > 0.0
    ensures (i as real - 0.5) * screenWidth <= offsetX < (i as real + 0.5) * screenWidth
  {
    var k := Round(offsetX / screenWidth);
    ScaleBounds(offsetX, screenWidth, k as real);
    k
  }

  lemma ScaleBounds(x: real, w: real, k: real)
    requires w > 0.0
    requires k - 0.5 <= x / w < k + 0.5
    ensures (k - 0.5) * w <= x < (k + 0.5) * w
  {
    var q := x / w;
    assert x == q * w;
    var above, below := k + 0.5 - q, q - (k - 0.5);
    assert above > 0.0 && below >= 0.0;
    assert above * w > 0.0;
    assert below * w >= 0.0;
    assert (k + 0.5) * w - x == above * w;
    assert x - (k - 0.5) * w == below * w;
  }

  /** Resting exactly on page k reports index k. */
  lemma RestingOnPage(k: int, screenWidth: real)
    requires screenWidth > 0.0
    ensures IndexFromScroll(k as real * screenWidth, screenWidth) == k
  {
    assert (k as real * screenWidth) / screenWidth == k as real;
  }

  /** Two pages whose half-page bands share an offset are the same page. */
  lemma BandsAreDisjoint(x: real, w: real, i: int, k: int)
    requires w > 0.0
    requires (i as real - 0.5) * w <= x < (i as real + 0.5) * w
    requires (k as real - 0.5) * w <= x < (k as real + 0.5) * w
    ensures i == k
  {
    OrderedBands(i as real - 0.5, k as real + 0.5, w, x);
    OrderedBands(k as real - 0.5, i as real + 0.5, w, x);
  }

  /** An offset at or past `a * w` and before `b * w`, with a positive
      `w`, puts `a` before `b`. */
  lemma OrderedBands(a: real, b: real, w: real, x: real)
    requires w > 0.0 && a * w <= x < b * w
    ensures a < b
  {
    assert (b - a) * w == b * w - a * w;
    assert (b - a) * w > 0.0;
  }

  /** While the pager is within half a page of slide k, the scroll handler
      highlights k's dot and no other. */
  lemma DotFollowsScroll(offsetX: real, screenWidth: real, k: int)
    requires screenWidth > 0.0 && 0 <= k <= LastSlide
    requires (k as real - 0.5) * screenWidth <= offsetX < (k as real + 0.5) * screenWidth
    ensures HighlightedDots(IndexFromScroll(offsetX, screenWidth)) == {k as nat}
  {
    BandsAreDisjoint(offsetX, screenWidth, IndexFromScroll(offsetX, screenWidth), k);
  }

  /** Where the pager is after some presses of the main button. */
  datatype Progress = OnSlide(index: int) | Done

  function PressNext(p: Progress, presses: nat): Progress
    decreases presses
  {
    if presses == 0 || p.Done? then p
    else match HandleNext(p.index)
      case GoTo(j) => PressNext(OnSlide(j), presses - 1)
      case Finish => Done
  }

  /** From slide i the pager finishes on exactly the (last - i + 1)-th
      press; before that, each press has moved it one slide on. */
  lemma {:induction false} PressesToFinish(i: int, presses: nat)
    requires 0 <= i <= LastSlide
    ensures PressNext(OnSlide(i), presses) == (if presses > LastSlide - i then Done else OnSlide(i + presses))
    decreases presses
  {
    if presses > 0 && i < LastSlide {
      PressesToFinish(i + 1, presses - 1);
    }
  }

  /** On every slide exactly one of Skip and Get Started is offered. */
  lemma SkipOrGetStarted(currentIndex: int)
    requires 0 <= currentIndex <= LastSlide
    ensures SkipVisible(currentIndex) <==> ButtonLabel(currentIndex) == "Next"
  {
  }
}

=== FILE: project_store.dfy ===
/** The editor's in-memory store (store/videoStore.ts): picked videos, one
    optional project being edited, and the export progress. Every project
    edit leaves a missing project missing and otherwise stamps the project
    with the clock's time. */
module ProjectStore {
  import opened Wrappers
  import opened Js
  import opened VideoTypes
  import Lists

  datatype ProjectState = ProjectState(
    videos: seq<VideoItem>,
    currentProject: Option<VideoProject>,
    selectedVideo: Option<VideoItem>,
    exportProgress: ExportProgress)

  const InitialState: ProjectState := ProjectState([], None, None, IdleProgress)

  /** `addVideo`: appends; nothing else changes. */
  function AddVideo(s: ProjectState, video: VideoItem): (t: ProjectState)
    ensures |t.videos| == |s.videos| + 1 && t.videos[|s.videos|] == video
    ensures t.videos[..|s.videos|] == s.videos
    ensures t == s.(videos := t.videos)
  {
    s.(videos := s.videos + [video])
  }

  /** `removeVideo`: drops every video with that id and keeps the rest. */
  function RemoveVideo(s: ProjectState, videoId: string): (t: ProjectState)
    ensures forall i :: 0 <= i < |t.videos| ==> t.videos[i].id != videoId && t.videos[i] in s.videos
    ensures forall i :: 0 <= i < |s.videos| && s.videos[i].id != videoId ==> s.videos[i] in t.videos
    ensures t == s.(videos := t.videos)
  {
    s.(videos := Lists.Filter(s.videos, OtherVideo(videoId)))
  }

  /** Removal distributes over concatenation and keeps or drops one video
      by its id, so the survivors keep their order and their repetitions. */
  lemma RemoveVideoKeepsOrder(s: ProjectState, a: seq<VideoItem>, b: seq<VideoItem>, v: VideoItem, videoId: string)
    ensures RemoveVideo(s.(videos := a + b), videoId).videos
            == RemoveVideo(s.(videos := a), videoId).videos + RemoveVideo(s.(videos := b), videoId).videos
    ensures RemoveVideo(s.(videos := [v]), videoId).videos == if v.id == videoId then [] else [v]
  {
    Lists.FilterAppend(a, b, OtherVideo(videoId));
    Lists.FilterOne(v, OtherVideo(videoId));
  }

  /** `createProject`: a fresh, empty project with the given name. The id
      and the two timestamps are three separate readings of the clock. */
  function CreateProject(s: ProjectState, name: string, clockForId: int, clockForCreated: int, clockForUpdated: int)
    : (t: ProjectState)
    ensures t.currentProject.Some?
    ensures var p := t.currentProject.value;
            p.name == name && p.id == IntToString(clockForId)
            && p.videos == [] && p.segments == [] && p.textOverlays == [] && p.filters == []
            && p.createdAt == clockForCreated && p.updatedAt == clockForUpdated
    ensures t == s.(currentProject := t.currentProject)
  {
    s.(currentProject := Some(VideoProject(IntToString(clockForId), name, [], [], [], [],
                                           clockForCreated, clockForUpdated)))
  }

  /** A `Partial<VideoProject>`: the fields an update supplies. */
  datatype ProjectPatch = ProjectPatch(
    id: Option<string>,
    name: Option<string>,
    videos: Option<seq<VideoItem>>,
    segments: Option<seq<VideoSegment>>,
    textOverlays: Option<seq<TextOverlay>>,
    filters: Option<seq<FilterEffect>>,
    createdAt: Option<int>)

  /** `updateProject`: merges the supplied fields into the project and
      stamps it; with no project there is nothing to update. */
  function UpdateProject(s: ProjectState, updates: ProjectPatch, now: int): (t: ProjectState)
    ensures t.currentProject.None? <==> s.currentProject.None?
    ensures t.currentProject.Some? ==>
              var p, q := s.currentProject.value, t.currentProject.value;
              q.updatedAt == now
              && q.id == updates.id.GetOr(p.id) && q.name == updates.name.GetOr(p.name)
              && q.videos == updates.videos.GetOr(p.videos)
              && q.segments == updates.segments.GetOr(p.segments)
              && q.textOverlays == updates.textOverlays.GetOr(p.textOverlays)
              && q.filters == updates.filters.GetOr(p.filters)
              && q.createdAt == updates.createdAt.GetOr(p.createdAt)
    ensures t == s.(currentProject := t.currentProject)
  {
    match s.currentProject
    case None => s
    case Some(p) =>
      s.(currentProject := Some(VideoProject(
        updates.id.GetOr(p.id), updates.name.GetOr(p.name), updates.videos.GetOr(p.videos),
        updates.segments.GetOr(p.segments), updates.textOverlays.GetOr(p.textOverlays),
        updates.filters.GetOr(p.filters), updates.createdAt.GetOr(p.createdAt), now)))
  }

  /** An empty patch only moves the project's modification time. */
  lemma EmptyPatchOnlyStamps(s: ProjectState, now: int)
    requires s.currentProject.Some?
    ensures UpdateProject(s, ProjectPatch(None, None, None, None, None, None, None), now).currentProject
            == Some(s.currentProject.value.(updatedAt := now))
  {
  }

  /** `clearProject`. */
  function ClearProject(s: ProjectState): (t: ProjectState)
    ensures t.currentProject.None? && t == s.(currentProject := None)
  {
    s.(currentProject := None)
  }

  /** What an editing action leaves behind: with no project, nothing; with
      a project, the same project except for the overlays, the filters and
      the modification time. */
  predicate EditedOnly(s: ProjectState, t: ProjectState, now: int) {
    t == s.(currentProject := t.currentProject)
    && (s.currentProject.None? ==> t.currentProject.None?)
    && (s.currentProject.Some? ==>
          t.currentProject.Some?
          && t.currentProject.value == s.currentProject.value.(
               textOverlays := t.currentProject.value.textOverlays,
               filters := t.currentProject.value.filters,
               updatedAt := now))
  }

  function Overlays(s: ProjectState): seq<TextOverlay>
    requires s.currentProject.Some?
  {
    s.currentProject.value.textOverlays
  }

  function Filters(s: ProjectState): seq<FilterEffect>
    requires s.currentProject.Some?
  {
    s.currentProject.value.filters
  }

  /** `addTextOverlay`: appends one overlay; the filters stay as they were. */
  function AddTextOverlay(s: ProjectState, overlay: TextOverlay, now: int): (t: ProjectState)
    ensures EditedOnly(s, t, now)
    ensures s.currentProject.Some? ==>
              Overlays(t) == Overlays(s) + [overlay] && Filters(t) == Filters(s)
  {
    match s.currentProject
    case None => s
    case Some(p) => s.(currentProject := Some(p.(textOverlays := p.textOverlays + [overlay], updatedAt := now)))
  }

  /** `removeTextOverlay`: drops every overlay with that id. */
  function RemoveTextOverlay(s: ProjectState, overlayId: string, now: int): (t: ProjectState)
    ensures EditedOnly(s, t, now)
    ensures s.currentProject.Some? ==>
              Filters(t) == Filters(s)
              && (forall i :: 0 <= i < |Overlays(t)| ==> Overlays(t)[i].id != overlayId && Overlays(t)[i] in Overlays(s))
              && (forall i :: 0 <= i < |Overlays(s)| && Overlays(s)[i].id != overlayId ==> Overlays(s)[i] in Overlays(t))
  {
    match s.currentProject
    case None => s
    case Some(p) =>
      s.(currentProject := Some(p.(
        textOverlays := Lists.Filter(p.textOverlays, OtherOverlay(overlayId)),
        updatedAt := now)))
  }

  /** The test `o.id !== overlayId` the overlays are filtered by. */
  function OtherOverlay(overlayId: string): TextOverlay -> bool {
    (o: TextOverlay) => o.id != overlayId
  }

  /** The state with the current project's overlays replaced. */
  function WithOverlays(s: ProjectState, overlays: seq<TextOverlay>): (t: ProjectState)
    requires s.currentProject.Some?
  {
    s.(currentProject := Some(s.currentProject.value.(textOverlays := overlays)))
  }

  /** Removal distributes over concatenation and keeps or drops one overlay
      by its id, so the surviving overlays keep their order and repetitions. */
  lemma RemoveTextOverlayKeepsOrder(s: ProjectState, a: seq<TextOverlay>, b: seq<TextOverlay>,
                                    o: TextOverlay, overlayId: string, now: int)
    requires s.currentProject.Some?
    ensures Overlays(RemoveTextOverlay(WithOverlays(s, a + b), overlayId, now))
            == Overlays(RemoveTextOverlay(WithOverlays(s, a), overlayId, now))
               + Overlays(RemoveTextOverlay(WithOverlays(s, b), overlayId, now))
    ensures Overlays(RemoveTextOverlay(WithOverlays(s, [o]), overlayId, now)) == if o.id == overlayId then [] else [o]
  {
    Lists.FilterAppend(a, b, OtherOverlay(overlayId));
    Lists.FilterOne(o, OtherOverlay(overlayId));
  }

  /** A `Partial<TextOverlay>`. */
  datatype OverlayPatch = OverlayPatch(
    id: Option<string>,
    text: Option<string>,
    x: Option<int>,
    y: Option<int>,
    fontSize: Option<int>,
    color: Option<string>,
    fontFamily: Option<string>,
    timestamp: Option<int>)

  /** `{ ...o, ...updates }`: every supplied field wins and the others keep
      their value; overlays carry no modification time. */
  function MergeOverlay(o: TextOverlay, p: OverlayPatch): (m: TextOverlay)
    ensures Spread(p.id, o.id, m.id) && Spread(p.text, o.text, m.text) && Spread(p.x, o.x, m.x)
            && Spread(p.y, o.y, m.y) && Spread(p.fontSize, o.fontSize, m.fontSize)
            && Spread(p.color, o.color, m.color) && Spread(p.timestamp, o.timestamp, m.timestamp)
    ensures SpreadOptional(p.fontFamily, o.fontFamily, m.fontFamily)
  {
    TextOverlay(p.id.GetOr(o.id), p.text.GetOr(o.text), p.x.GetOr(o.x), p.y.GetOr(o.y),
                p.fontSize.GetOr(o.fontSize), p.color.GetOr(o.color),
                if p.fontFamily.Some? then p.fontFamily else o.fontFamily,
                p.timestamp.GetOr(o.timestamp))
  }

  /** The overlay patch that supplies nothing. */
  const NoOverlayChanges: OverlayPatch := OverlayPatch(None, None, None, None, None, None, None, None)

  /** The overlay patch that supplies every field of `w`. */
  function OverlayPatchOf(w: TextOverlay): OverlayPatch {
    OverlayPatch(Some(w.id), Some(w.text), Some(w.x), Some(w.y), Some(w.fontSize), Some(w.color),
                 w.fontFamily, Some(w.timestamp))
  }

  /** An empty overlay patch changes nothing; one that supplies every field
      of `w` turns any overlay into `w`. */
  lemma MergeOverlayExtremes(o: TextOverlay, w: TextOverlay)
    requires w.fontFamily.Some?
    ensures MergeOverlay(o, NoOverlayChanges) == o
    ensures MergeOverlay(o, OverlayPatchOf(w)) == w
  {
  }

  /** `updateTextOverlay`: merges into the overlays with that id, in place. */
  function UpdateTextOverlay(s: ProjectState, overlayId: string, updates: OverlayPatch, now: int): (t: ProjectState)
    ensures EditedOnly(s, t, now)
    ensures s.currentProject.Some? ==>
              Filters(t) == Filters(s) && |Overlays(t)| == |Overlays(s)|
              && (forall i :: 0 <= i < |Overlays(s)| && Overlays(s)[i].id == overlayId
                    ==> Overlays(t)[i] == MergeOverlay(Overlays(s)[i], updates))
              && (forall i :: 0 <= i < |Overlays(s)| && Overlays(s)[i].id != overlayId
                    ==> Overlays(t)[i] == Overlays(s)[i])
  {
    match s.currentProject
    case None => s
    case Some(p) =>
      s.(currentProject := Some(p.(
        textOverlays := Lists.MapWhere(p.textOverlays, (o: TextOverlay) => o.id == overlayId,
                                       (o: TextOverlay) => MergeOverlay(o, updates)),
        updatedAt := now)))
  }

  /** `addFilter`: appends one filter; the overlays stay as they were. */
  function AddFilter(s: ProjectState, filter: FilterEffect, now: int): (t: ProjectState)
    ensures EditedOnly(s, t, now)
    ensures s.currentProject.Some? ==>
              Filters(t) == Filters(s) + [filter] && Overlays(t) == Overlays(s)
  {
    match s.currentProject
    case None => s
    case Some(p) => s.(currentProject := Some(p.(filters := p.filters + [filter], updatedAt := now)))
  }

  /** `removeFilter`: removes exactly the filter at that position, or none
      when the position is out of range. */
  function RemoveFilter(s: ProjectState, filterIndex: int, now: int): (t: ProjectState)
    ensures EditedOnly(s, t, now)
    ensures s.currentProject.Some? ==>
              Overlays(t) == Overlays(s)
              && (0 <= filterIndex < |Filters(s)| ==>
                    Filters(t) == Filters(s)[..filterIndex] + Filters(s)[filterIndex + 1..])
              && (!(0 <= filterIndex < |Filters(s)|) ==> Filters(t) == Filters(s))
  {
    match s.currentProject
    case None => s
    case Some(p) => s.(currentProject := Some(p.(filters := Lists.DropIndex(p.filters, filterIndex), updatedAt := now)))
  }

  /** `updateFilter`: replaces only the filter at that position. */
  function UpdateFilter(s: ProjectState, filterIndex: int, filter: FilterEffect, now: int): (t: ProjectState)
    ensures EditedOnly(s, t, now)
    ensures s.currentProject.Some? ==>
              Overlays(t) == Overlays(s) && |Filters(t)| == |Filters(s)|
              && (0 <= filterIndex < |Filters(s)| ==> Filters(t)[filterIndex] == filter)
              && (forall j :: 0 <= j < |Filters(s)| && j != filterIndex ==> Filters(t)[j] == Filters(s)[j])
  {
    match s.currentProject
    case None => s
    case Some(p) => s.(currentProject := Some(p.(filters := Lists.ReplaceAt(p.filters, filterIndex, filter), updatedAt := now)))
  }

  /** Adding a filter and then removing the last one gives back the
      project's filters. */
  lemma AddThenRemoveFilter(s: ProjectState, filter: FilterEffect, now1: int, now2: int)
    requires s.currentProject.Some?
    ensures var t := RemoveFilter(AddFilter(s, filter, now1), |Filters(s)|, now2);
            Filters(t) == Filters(s) && Overlays(t) == Overlays(s)
  {
    var t := AddFilter(s, filter, now1);
    assert Filters(t)[..|Filters(s)|] == Filters(s);
  }

  /** An overlay whose id no overlay of the project carries yet is removed
      again by its id, leaving the overlays and the filters as they were. */
  lemma AddThenRemoveTextOverlay(s: ProjectState, overlay: TextOverlay, now1: int, now2: int)
    requires s.currentProject.Some?
    requires forall i :: 0 <= i < |Overlays(s)| ==> Overlays(s)[i].id != overlay.id
    ensures var t := RemoveTextOverlay(AddTextOverlay(s, overlay, now1), overlay.id, now2);
            Overlays(t) == Overlays(s) && Filters(t) == Filters(s)
  {
    Lists.FilterAppend(Overlays(s), [overlay], OtherOverlay(overlay.id));
    Lists.FilterOne(overlay, OtherOverlay(overlay.id));
  }

  /** An overlay update that supplies nothing leaves every overlay as it
      was and only stamps the project. */
  lemma UpdateWithNoChangesOnlyStamps(s: ProjectState, overlayId: string, now: int)
    requires s.currentProject.Some?
    ensures UpdateTextOverlay(s, overlayId, NoOverlayChanges, now).currentProject
            == Some(s.currentProject.value.(updatedAt := now))
  {
    var t := UpdateTextOverlay(s, overlayId, NoOverlayChanges, now);
    assert Overlays(t) == Overlays(s);
  }

  /** `resetExportProgress`: back to progress 0, idle; nothing else changes. */
  function ResetExportProgress(s: ProjectState): (t: ProjectState)
    ensures t.exportProgress.progress == 0 && t.exportProgress.status == Idle
    ensures t.exportProgress.outputUri.None? && t.exportProgress.error.None?
    ensures t == s.(exportProgress := t.exportProgress)
  {
    s.(exportProgress := IdleProgress)
  }
}

=== FILE: reels_card.dfy ===
/** The full-screen clip card of the reels feed
    (components/reels-video-card.tsx): the play/pause decision taken after
    the settle delay, the content-fit rule, the press handlers and the
    memo test that decides whether the card re-renders. */
module ReelsCard {
  import opened Wrappers
  import opened VideoTypes
  import DiaryStore

  datatype PlayerCommand = Play | Pause

  /** The decision taken when the settle timer fires: nothing without a
      player or once the card is unmounted; otherwise play exactly when the
      card is the active one and not held down. */
  function PlaybackDecision(hasPlayer: bool, mounted: bool, isActive: bool, isPaused: bool): (r: Option<PlayerCommand>)
    ensures r.None? <==> !hasPlayer || !mounted
    ensures r == Some(Play) <==> hasPlayer && mounted && isActive && !isPaused
    ensures r == Some(Pause) <==> hasPlayer && mounted && (!isActive || isPaused)
  {
    if !hasPlayer || !mounted then None
    else if isActive && !isPaused then Some(Play)
    else Some(Pause)
  }

  datatype ContentFit = Contain | Cover

  /** A dimension counts only when present and non-zero (`width && height`). */
  predicate Known(d: Option<nat>) {
    d.Some? && d.value != 0
  }

  /** `getContentFit`: a clip wider than 0.6 is letterboxed, a taller one
      fills the screen, and one without both dimensions is letterboxed. The
      ratio test `width / height > 0.6` is done by cross-multiplication. */
  function CardContentFit(width: Option<nat>, height: Option<nat>): (f: ContentFit)
    ensures f == Cover <==> (Known(width) && Known(height)
                             && (width.value as real) / (height.value as real) <= 0.6)
  {
    if Known(width) && Known(height) then
      if 10 * width.value > 6 * height.value then Contain else Cover
    else Contain
  }

  /** A 9:16 portrait clip fills the screen; square and landscape clips,
      and 4:5, are letterboxed. */
  lemma CommonShapes()
    ensures CardContentFit(Some(1080), Some(1920)) == Cover
    ensures CardContentFit(Some(1080), Some(1350)) == Contain
    ensures CardContentFit(Some(1080), Some(1080)) == Contain
    ensures CardContentFit(Some(1920), Some(1080)) == Contain
  {
  }

  /** `handlePressIn`: holding a card sets the held flag, after which the
      settle timer never starts playback, whatever the card's state. */
  function HandlePressIn(): (isPaused: bool)
    ensures isPaused
    ensures forall hasPlayer, mounted, isActive ::
              PlaybackDecision(hasPlayer, mounted, isActive, isPaused) != Some(Play)
  {
    true
  }

  /** `handlePressOut`: releasing clears the flag, after which the timer
      plays exactly the active, mounted card that has a player. */
  function HandlePressOut(): (isPaused: bool)
    ensures !isPaused
    ensures forall hasPlayer, mounted, isActive ::
              PlaybackDecision(hasPlayer, mounted, isActive, isPaused) == Some(Play)
              <==> hasPlayer && mounted && isActive
  {
    false
  }

  /** Releasing the active card after holding it resumes playback; holding
      it pauses. */
  lemma PressAndRelease()
    ensures PlaybackDecision(true, true, true, HandlePressIn()) == Some(Pause)
    ensures PlaybackDecision(true, true, true, HandlePressOut()) == Some(Play)
  {
  }

  /** The props the memo compares. */
  datatype CardProps = CardProps(video: CroppedVideo, isActive: bool)

  /** The memo equality: a re-render is skipped exactly when the id, the
      active flag and the raw favourite flag are unchanged (an absent flag
      and an explicit false count as different). Identical props always
      skip; a skip never hides a change of clip, of activity or of the
      favourite state shown. */
  function SkipRerender(prev: CardProps, next: CardProps): (skip: bool)
    ensures prev == next ==> skip
    ensures skip ==> prev.video.id == next.video.id && prev.isActive == next.isActive
                     && DiaryStore.IsFavorite(prev.video) == DiaryStore.IsFavorite(next.video)
    ensures prev.video.isFavorite.None? && next.video.isFavorite == Some(false) ==> !skip
  {
    prev.video.id == next.video.id && prev.isActive == next.isActive
    && prev.video.isFavorite == next.video.isFavorite
  }

  /** Props that differ only outside the three compared fields skip the
      render: the title, description, uri and timestamps are not compared. */
  lemma UncomparedFieldsSkip(prev: CardProps, v: CroppedVideo)
    requires v.id == prev.video.id && v.isFavorite == prev.video.isFavorite
    ensures SkipRerender(prev, prev.(video := v))
  {
  }

  /** Renaming a clip in the store does not re-render its card, which keeps
      showing the old title and description until something compared
      changes. */
  lemma RenamedCardSkips(s: DiaryStore.DiaryState, i: nat, name: string, description: string,
                         isActive: bool, now: int)
    requires i < |s.croppedVideos|
    ensures var t := DiaryStore.UpdateCroppedVideo(s, s.croppedVideos[i].id,
                                                   DiaryStore.NameAndDescription(name, description), now);
            SkipRerender(CardProps(s.croppedVideos[i], isActive), CardProps(t.croppedVideos[i], isActive))
  {
    DiaryStore.MergeNameAndDescription(s.croppedVideos[i], name, description, now);
  }

  /** A card never skips the render that follows toggling its clip's
      favourite in the store. */
  lemma ToggledCardRerenders(s: DiaryStore.DiaryState, i: nat, isActive: bool, now: int)
    requires i < |s.croppedVideos|
    ensures var t := DiaryStore.ToggleFavorite(s, s.croppedVideos[i].id, now);
            !SkipRerender(CardProps(s.croppedVideos[i], isActive), CardProps(t.croppedVideos[i], isActive))
  {
  }

  /** Between two skipped renders the card shows the same playback
      decision, because the decision depends only on compared props. */
  lemma SkippedRenderKeepsDecision(prev: CardProps, next: CardProps, hasPlayer: bool, mounted: bool, isPaused: bool)
    requires SkipRerender(prev, next)
    ensures PlaybackDecision(hasPlayer, mounted, prev.isActive, isPaused)
            == PlaybackDecision(hasPlayer, mounted, next.isActive, isPaused)
  {
  }
}

=== FILE: scrubber.dfy ===
/** The trim-window scrubber: a horizontally scrolling strip of one
    thumbnail per second of source video under a fixed frame. The scroll
    offset chooses where the fixed-length trim window starts; the strip's
    thumbnails are requested from the platform in batches and the strip is
    emptied before their files are deleted. */
module Scrubber {
  import opened Wrappers
  import opened Js
  import opened Clock
  import AppConstants

  // ---------------------------------------------------------------------
  // Scroll offset to trim window

  function Max(a: real, b: real): real { if a >= b then a else b }
  function Min(a: real, b: real): real { if a <= b then a else b }

  /** The time a scroll offset stands for: one thumbnail cell (60 px) is one second. */
  function ScrollToMs(scrollPosition: real): real {
    scrollPosition / (AppConstants.THUMBNAIL_WIDTH as real) * 1000.0
  }

  /** The window start chosen by a scroll offset, clamped so that the window
      stays inside the source whenever the source is long enough to hold it. */
  function ClampedStart(scrollPosition: real, duration: int, trimDuration: int): (s: real)
    ensures s >= 0.0
    ensures duration >= trimDuration ==> s <= (duration - trimDuration) as real
    ensures duration <= trimDuration ==> s == 0.0
    ensures 0.0 <= ScrollToMs(scrollPosition) <= (duration - trimDuration) as real
            ==> s == scrollPosition * 1000.0 / 60.0
    ensures ScrollToMs(scrollPosition) <= 0.0 ==> s == 0.0
    ensures duration >= trimDuration && ScrollToMs(scrollPosition) >= (duration - trimDuration) as real
            ==> s == (duration - trimDuration) as real
  {
    Max(0.0, Min(ScrollToMs(scrollPosition), (duration - trimDuration) as real))
  }

  /** The three labels above the frame. */
  datatype DisplayTimes = DisplayTimes(start: real, center: real, end: real)

  /** What one scroll sample produces: the labels it displays and the
      window it reports to the host through `onTrimChange(start, end)`. */
  datatype TrimUpdate = TrimUpdate(display: DisplayTimes, startTime: real, endTime: real)

  /** One scroll sample: the window always spans exactly `trimDuration`,
      starts inside the source, and ends inside it when the source is at
      least `trimDuration` long; a shorter source yields the degenerate
      window [0, trimDuration] that runs past the end of the video. */
  function UpdateTrimFromScroll(scrollPosition: real, duration: int, trimDuration: int): (u: TrimUpdate)
    ensures u.endTime - u.startTime == trimDuration as real
    ensures u.startTime == ClampedStart(scrollPosition, duration, trimDuration)
    ensures u.startTime >= 0.0
    ensures duration >= trimDuration ==> u.endTime <= duration as real
    ensures duration < trimDuration ==> u.startTime == 0.0 && u.endTime > duration as real
    ensures u.display.start == u.startTime && u.display.end == u.endTime
    ensures u.display.center - u.display.start == u.display.end - u.display.center
  {
    var start := ClampedStart(scrollPosition, duration, trimDuration);
    TrimUpdate(
      DisplayTimes(start, start + trimDuration as real / 2.0, start + trimDuration as real),
      start, start + trimDuration as real)
  }

  /** Scrolling further right never moves the window earlier. */
  lemma StartMonotone(p1: real, p2: real, duration: int, trimDuration: int)
    requires p1 <= p2
    ensures ClampedStart(p1, duration, trimDuration) <= ClampedStart(p2, duration, trimDuration)
    ensures UpdateTrimFromScroll(p1, duration, trimDuration).endTime
            <= UpdateTrimFromScroll(p2, duration, trimDuration).endTime
  {
  }

  // ---------------------------------------------------------------------
  // Thumbnail plan

  /** `Math.floor(duration / 1000)`: whole seconds of source video. */
  function SecondsOf(duration: int): (n: int)
    ensures n * 1000 <= duration < n * 1000 + 1000
  {
    duration / 1000
  }

  /** How many times the batch loop runs: `Math.ceil(n / 10)`, which is no
      iteration at all when there is no whole second. */
  function BatchCount(n: int): (c: nat)
    ensures n <= 0 ==> c == 0
    ensures n > 0 ==> AppConstants.THUMBNAIL_BATCH_SIZE * (c - 1) < n <= AppConstants.THUMBNAIL_BATCH_SIZE * c
  {
    if n <= 0 then 0 else (n + AppConstants.THUMBNAIL_BATCH_SIZE - 1) / AppConstants.THUMBNAIL_BATCH_SIZE
  }

  function MinInt(a: int, b: int): int { if a <= b then a else b }

  /** The seconds covered by batch `b`: `[10b, min(10b + 10, n))`. */
  function BatchEnd(b: int, n: int): int {
    MinInt(AppConstants.THUMBNAIL_BATCH_SIZE * (b + 1), n)
  }

  /** The request times the whole generation issues, in order: one per
      whole second, at `i * 1000` ms. */
  function RequestPlan(k: nat): (r: seq<int>)
    ensures |r| == k
    ensures forall i :: 0 <= i < k ==> r[i] == i * 1000
  {
    seq(k, i => i * 1000)
  }

  /** Whether one answer of the thumbnail service yields a thumbnail: the
      source keeps a result only when it carries a non-empty uri; a rejected
      request was already turned into `null`. */
  predicate Delivered(r: Option<string>) {
    r.Some? && r.value != ""
  }

  /** The thumbnails accumulated from the first `k` seconds, in the order
      the code appends them; `frames(t)` is the service's answer for time `t`. */
  function Thumbs(frames: int -> Option<string>, k: nat): seq<string> {
    if k == 0 then []
    else Thumbs(frames, k - 1) + (if Delivered(frames((k - 1) * 1000)) then [frames((k - 1) * 1000).value] else [])
  }

  /** The seconds whose thumbnail was delivered, among the first `k`:
      strictly increasing, and exactly the successful ones. */
  function DeliveredSeconds(frames: int -> Option<string>, k: nat): (r: seq<nat>)
    ensures forall j :: 0 <= j < |r| ==> r[j] < k
    ensures forall a, b :: 0 <= a < b < |r| ==> r[a] < r[b]
    ensures forall i: nat :: i in r <==> i < k && Delivered(frames(i * 1000))
  {
    if k == 0 then []
    else DeliveredSeconds(frames, k - 1) + (if Delivered(frames((k - 1) * 1000)) then [k - 1] else [])
  }

  /** The accumulated list holds exactly the delivered thumbnails in
      increasing time order: the j-th entry is the frame of the j-th
      successful second, and failed seconds leave no entry. */
  lemma {:induction false} ThumbsAreDeliveredInOrder(frames: int -> Option<string>, k: nat)
    ensures |Thumbs(frames, k)| == |DeliveredSeconds(frames, k)|
    ensures forall j :: 0 <= j < |Thumbs(frames, k)| ==>
              Thumbs(frames, k)[j] == frames(DeliveredSeconds(frames, k)[j] * 1000).value
  {
    if k > 0 {
      ThumbsAreDeliveredInOrder(frames, k - 1);
    }
  }

  /** The list only grows: what was shown after fewer seconds is a prefix of
      what is shown after more. */
  lemma {:induction false} ThumbsGrow(frames: int -> Option<string>, k1: nat, k2: nat)
    requires k1 <= k2
    ensures |Thumbs(frames, k1)| <= |Thumbs(frames, k2)|
    ensures Thumbs(frames, k2)[..|Thumbs(frames, k1)|] == Thumbs(frames, k1)
    decreases k2
  {
    if k1 < k2 {
      ThumbsGrow(frames, k1, k2 - 1);
    }
  }

  // ---------------------------------------------------------------------
  // Effects of generation and cleanup

  /** The observable steps of the scrubber's thumbnail life cycle. */
  datatype Effect =
    | SetLoading(on: bool)
    | ClearList                              // the stored list and the rendered list become empty
    | ClearImageCache
    | DeleteFile(uri: string, removed: bool) // one deletion attempt and whether the file went away
    | RequestFrame(timeMs: int)              // one call of the thumbnail service
    | Publish(thumbnails: seq<string>)       // the stored and rendered list is replaced

  /** Cleanup of the thumbnails stored so far: the list is emptied and the
      image cache cleared first; only then is each file's deletion attempted,
      and a deletion that fails (`deleteOk` false) is swallowed. */
  function CleanupEffects(stored: seq<string>, deleteOk: string -> bool): (r: seq<Effect>)
    ensures |r| >= 2 && r[0] == ClearList
    ensures forall j :: 0 <= j < |r| && r[j].DeleteFile? ==> j > 0 && r[j].uri in stored
    ensures forall j :: 0 <= j < |r| ==> !r[j].RequestFrame? && !r[j].Publish? && !r[j].SetLoading?
  {
    [ClearList, ClearImageCache]
    + (if |stored| > 0
       then seq(|stored|, i requires 0 <= i < |stored| => DeleteFile(stored[i], deleteOk(stored[i])))
            + [ClearImageCache]
       else [])
  }

  /** The uris whose deletion a trace attempts, in order. */
  function DeletedUris(trace: seq<Effect>): seq<string> {
    if |trace| == 0 then []
    else DeletedUris(trace[..|trace| - 1])
         + (if trace[|trace| - 1].DeleteFile? then [trace[|trace| - 1].uri] else [])
  }

  /** Forgets whether each deletion succeeded. */
  function Attempt(e: Effect): Effect {
    if e.DeleteFile? then DeleteFile(e.uri, true) else e
  }

  function Attempts(trace: seq<Effect>): (r: seq<Effect>)
    ensures |r| == |trace|
  {
    seq(|trace|, i requires 0 <= i < |trace| => Attempt(trace[i]))
  }

  lemma {:induction false} DeletedUrisOfDeletions(stored: seq<string>, deleteOk: string -> bool, k: nat)
    requires k <= |stored|
    ensures DeletedUris(seq(k, i requires 0 <= i < k => DeleteFile(stored[i], deleteOk(stored[i])))) == stored[..k]
  {
    if k > 0 {
      var t := seq(k, i requires 0 <= i < k => DeleteFile(stored[i], deleteOk(stored[i])));
      assert t[..k - 1] == seq(k - 1, i requires 0 <= i < k - 1 => DeleteFile(stored[i], deleteOk(stored[i])));
      DeletedUrisOfDeletions(stored, deleteOk, k - 1);
      assert stored[..k] == stored[..k - 1] + [stored[k - 1]];
    }
  }

  lemma {:induction false} DeletedUrisAppend(a: seq<Effect>, b: seq<Effect>)
    ensures DeletedUris(a + b) == DeletedUris(a) + DeletedUris(b)
    decreases |b|
  {
    if |b| > 0 {
      assert (a + b)[..|a + b| - 1] == a + b[..|b| - 1];
      DeletedUrisAppend(a, b[..|b| - 1]);
    } else {
      assert a + b == a;
    }
  }

  /** Cleanup attempts to delete every stored file exactly once, in order. */
  lemma CleanupDeletesEveryFile(stored: seq<string>, deleteOk: string -> bool)
    ensures DeletedUris(CleanupEffects(stored, deleteOk)) == stored
  {
    var head: seq<Effect> := [ClearList, ClearImageCache];
    assert DeletedUris(head) == [] by {
      assert head[..1] == [ClearList];
      assert [ClearList][..0] == [];
    }
    if |stored| > 0 {
      var dels := seq(|stored|, i requires 0 <= i < |stored| => DeleteFile(stored[i], deleteOk(stored[i])));
      DeletedUrisOfDeletions(stored, deleteOk, |stored|);
      assert stored[..|stored|] == stored;
      DeletedUrisAppend(head, dels);
      DeletedUrisAppend(head + dels, [ClearImageCache]);
      assert DeletedUris([ClearImageCache]) == [] by {
        assert [ClearImageCache][..0] == [];
      }
      assert CleanupEffects(stored, deleteOk) == head + dels + [ClearImageCache];
    } else {
      assert CleanupEffects(stored, deleteOk) == head;
    }
  }

  /** What cleanup does never depends on which deletions failed: a failed
      deletion is swallowed and the remaining ones are still attempted. */
  lemma CleanupSwallowsFailures(stored: seq<string>, ok1: string -> bool, ok2: string -> bool)
    ensures Attempts(CleanupEffects(stored, ok1)) == Attempts(CleanupEffects(stored, ok2))
  {
    var r1 := CleanupEffects(stored, ok1);
    var r2 := CleanupEffects(stored, ok2);
    assert |r1| == |r2|;
    forall i | 0 <= i < |r1|
      ensures Attempt(r1[i]) == Attempt(r2[i])
    {
    }
  }

  /** The request times of a trace, in order. */
  function Requests(trace: seq<Effect>): seq<int> {
    if |trace| == 0 then []
    else Requests(trace[..|trace| - 1])
         + (if trace[|trace| - 1].RequestFrame? then [trace[|trace| - 1].timeMs] else [])
  }

  /** The lists a trace publishes, in order. */
  function Publishes(trace: seq<Effect>): seq<seq<string>> {
    if |trace| == 0 then []
    else Publishes(trace[..|trace| - 1])
         + (if trace[|trace| - 1].Publish? then [trace[|trace| - 1].thumbnails] else [])
  }

  lemma {:induction false} QuietPrefix(trace: seq<Effect>)
    requires forall j :: 0 <= j < |trace| ==> !trace[j].RequestFrame? && !trace[j].Publish?
    ensures Requests(trace) == [] && Publishes(trace) == []
    decreases |trace|
  {
    if |trace| > 0 {
      QuietPrefix(trace[..|trace| - 1]);
    }
  }

  lemma {:induction false} ProjectionsAppend(a: seq<Effect>, b: seq<Effect>)
    ensures Requests(a + b) == Requests(a) + Requests(b)
    ensures Publishes(a + b) == Publishes(a) + Publishes(b)
    decreases |b|
  {
    if |b| > 0 {
      assert (a + b)[..|a + b| - 1] == a + b[..|b| - 1];
      ProjectionsAppend(a, b[..|b| - 1]);
    } else {
      assert a + b == a;
    }
  }

  /** The requests of one batch, issued together for seconds `[start, end)`. */
  function BatchRequests(start: int, end: int): seq<Effect>
    requires start <= end
  {
    seq(end - start, i => RequestFrame((start + i) * 1000))
  }

  lemma {:induction false} RequestsOfBatch(start: int, end: int)
    requires 0 <= start <= end
    ensures Requests(BatchRequests(start, end)) == RequestPlan(end)[start..]
    ensures Publishes(BatchRequests(start, end)) == []
    decreases end - start
  {
    var r := BatchRequests(start, end);
    if end > start {
      RequestsOfBatch(start, end - 1);
      assert r[..|r| - 1] == BatchRequests(start, end - 1);
      assert RequestPlan(end)[start..] == RequestPlan(end - 1)[start..] + [(end - 1) * 1000];
    }
  }

  /** The list published after batch `b`. */
  function Snapshot(frames: int -> Option<string>, n: int, b: int): seq<string> {
    Thumbs(frames, if BatchEnd(b, n) < 0 then 0 else BatchEnd(b, n))
  }

  /** Every publication comes right after the requests of its own batch:
      when the `b`-th list is published, exactly the frames for the seconds
      `[0, BatchEnd(b, n))` have been requested. */
  predicate PublishesAfterItsBatch(trace: seq<Effect>, n: int) {
    forall j :: 0 <= j < |trace| ==>
      trace[j].Publish? ==> |Requests(trace[..j])| == BatchEnd(|Publishes(trace[..j])|, n)
  }

  /** `generateThumbnails`: loading is switched on, the previous thumbnails
      are cleaned up before anything else happens, then one frame per whole
      second is requested, ten at a time; after each batch the list of
      delivered thumbnails so far is published, and loading is switched off.
      `frames` stands for the thumbnail service and `deleteOk` for the file
      system's deletions. */
  method GenerateThumbnails(stored: seq<string>, duration: int,
                            frames: int -> Option<string>, deleteOk: string -> bool)
    returns (trace: seq<Effect>, thumbs: seq<string>)
    ensures |trace| >= 2 && trace[0] == SetLoading(true) && trace[|trace| - 1] == SetLoading(false)
    ensures var c := CleanupEffects(stored, deleteOk);
            |trace| > |c| && trace[1..|c| + 1] == c
            && forall j :: |c| + 1 <= j < |trace| ==> !trace[j].DeleteFile? && !trace[j].ClearList?
    ensures Requests(trace) == RequestPlan(if SecondsOf(duration) < 0 then 0 else SecondsOf(duration))
    ensures Publishes(trace) == seq(BatchCount(SecondsOf(duration)), b => Snapshot(frames, SecondsOf(duration), b))
    ensures thumbs == Thumbs(frames, if SecondsOf(duration) < 0 then 0 else SecondsOf(duration))
    ensures PublishesAfterItsBatch(trace, SecondsOf(duration))
  {
    var c := CleanupEffects(stored, deleteOk);
    var body;
    body, thumbs := RunBatches(frames, SecondsOf(duration));
    trace := [SetLoading(true)] + c + body + [SetLoading(false)];
    Assemble(c, body);
    Enclose([SetLoading(true)] + c, body, [SetLoading(false)], SecondsOf(duration));
  }

  /** The batch loop of `generateThumbnails` for `n` whole seconds: batch
      `b` requests the frames of seconds `[10b, min(10b + 10, n))` together
      and, once all have answered, publishes every thumbnail delivered so
      far. */
  method RunBatches(frames: int -> Option<string>, n: int) returns (body: seq<Effect>, thumbs: seq<string>)
    ensures forall j :: 0 <= j < |body| ==> body[j].RequestFrame? || body[j].Publish?
    ensures Requests(body) == RequestPlan(if n < 0 then 0 else n)
    ensures Publishes(body) == seq(BatchCount(n), b => Snapshot(frames, n, b))
    ensures thumbs == Thumbs(frames, if n < 0 then 0 else n)
    ensures PublishesAfterItsBatch(body, n)
  {
    thumbs := [];
    var batches := BatchCount(n);
    body := [];
    var batch := 0;
    var done := 0;
    while batch < batches
      invariant 0 <= batch <= batches
      invariant done == if batch == 0 then 0 else BatchEnd(batch - 1, n)
      invariant 0 <= done
      invariant forall j :: 0 <= j < |body| ==> body[j].RequestFrame? || body[j].Publish?
      invariant Requests(body) == RequestPlan(done)
      invariant thumbs == Thumbs(frames, done)
      invariant Publishes(body) == seq(batch, b => Snapshot(frames, n, b))
      invariant PublishesAfterItsBatch(body, n)
    {
      var start := AppConstants.THUMBNAIL_BATCH_SIZE * batch;
      var end := BatchEnd(batch, n);
      assert start == done;
      thumbs := CollectBatch(frames, thumbs, start, end);
      BatchStep(frames, n, batch, body, thumbs);
      body := body + BatchRequests(start, end) + [Publish(thumbs)];
      batch := batch + 1;
      done := end;
    }
  }

  /** Publishing right after a batch's requests keeps every publication
      behind exactly its own batch's requests. */
  lemma PublishStep(body: seq<Effect>, requests: seq<Effect>, thumbs: seq<string>, n: int)
    requires PublishesAfterItsBatch(body, n)
    requires Publishes(requests) == []
    requires |Requests(body + requests)| == BatchEnd(|Publishes(body)|, n)
    ensures PublishesAfterItsBatch(body + requests + [Publish(thumbs)], n)
  {
    var next := body + requests + [Publish(thumbs)];
    ProjectionsAppend(body, requests);
    NothingPublished(requests);
    forall j | 0 <= j < |next|
      ensures next[j].Publish? ==> |Requests(next[..j])| == BatchEnd(|Publishes(next[..j])|, n)
    {
      if j < |body| {
        assert next[..j] == body[..j] && next[j] == body[j];
      } else if j == |next| - 1 {
        assert next[..j] == body + requests;
      } else {
        assert next[j] == requests[j - |body|];
      }
    }
  }

  /** A trace that publishes nothing holds no publication. */
  lemma {:induction false} NothingPublished(trace: seq<Effect>)
    requires Publishes(trace) == []
    ensures forall j :: 0 <= j < |trace| ==> !trace[j].Publish?
    decreases |trace|
  {
    if |trace| > 0 {
      NothingPublished(trace[..|trace| - 1]);
      assert forall j :: 0 <= j < |trace| - 1 ==> trace[j] == trace[..|trace| - 1][j];
    }
  }

  /** Effects that neither request nor publish, put around a trace, keep
      every publication behind its own batch's requests. */
  lemma Enclose(head: seq<Effect>, body: seq<Effect>, tail: seq<Effect>, n: int)
    requires forall j :: 0 <= j < |head| ==> !head[j].RequestFrame? && !head[j].Publish?
    requires forall j :: 0 <= j < |tail| ==> !tail[j].Publish?
    requires PublishesAfterItsBatch(body, n)
    ensures PublishesAfterItsBatch(head + body + tail, n)
  {
    var trace := head + body + tail;
    QuietPrefix(head);
    forall j | 0 <= j < |trace|
      ensures trace[j].Publish? ==> |Requests(trace[..j])| == BatchEnd(|Publishes(trace[..j])|, n)
    {
      if |head| <= j < |head| + |body| {
        assert trace[..j] == head + body[..j - |head|];
        assert trace[j] == body[j - |head|];
        ProjectionsAppend(head, body[..j - |head|]);
      } else if j < |head| {
        assert trace[j] == head[j];
      } else {
        assert trace[j] == tail[j - |head| - |body|];
      }
    }
  }

  /** Appending one batch's requests and the list published after it keeps
      the generation loop's account of requests and publications. */
  lemma BatchStep(frames: int -> Option<string>, n: int, batch: nat, body: seq<Effect>, thumbs: seq<string>)
    requires 0 <= AppConstants.THUMBNAIL_BATCH_SIZE * batch <= BatchEnd(batch, n)
    requires Requests(body) == RequestPlan(AppConstants.THUMBNAIL_BATCH_SIZE * batch)
    requires Publishes(body) == seq(batch, b => Snapshot(frames, n, b))
    requires thumbs == Thumbs(frames, BatchEnd(batch, n))
    requires PublishesAfterItsBatch(body, n)
    ensures var next := body + BatchRequests(AppConstants.THUMBNAIL_BATCH_SIZE * batch, BatchEnd(batch, n)) + [Publish(thumbs)];
            Requests(next) == RequestPlan(BatchEnd(batch, n))
            && Publishes(next) == seq(batch + 1, b => Snapshot(frames, n, b))
            && PublishesAfterItsBatch(next, n)
  {
    var start := AppConstants.THUMBNAIL_BATCH_SIZE * batch;
    var end := BatchEnd(batch, n);
    var requests := BatchRequests(start, end);
    RequestsOfBatch(start, end);
    QuietPrefix([]);
    assert [Publish(thumbs)][..0] == [];
    ProjectionsAppend(body, requests);
    ProjectionsAppend(body + requests, [Publish(thumbs)]);
    assert RequestPlan(end) == RequestPlan(start) + RequestPlan(end)[start..];
    assert seq(batch + 1, b => Snapshot(frames, n, b))
        == seq(batch, b => Snapshot(frames, n, b)) + [Snapshot(frames, n, batch)];
    PublishStep(body, requests, thumbs, n);
  }

  /** One batch's results, appended in request order once all have arrived. */
  method CollectBatch(frames: int -> Option<string>, sofar: seq<string>, start: nat, end: int)
    returns (thumbs: seq<string>)
    requires start <= end
    requires sofar == Thumbs(frames, start)
    ensures thumbs == Thumbs(frames, end)
  {
    thumbs := sofar;
    var i := start;
    while i < end
      invariant start <= i <= end
      invariant thumbs == Thumbs(frames, i)
    {
      var result := frames(i * 1000);
      if Delivered(result) {
        thumbs := thumbs + [result.value];
      }
      i := i + 1;
    }
  }

  lemma Assemble(c: seq<Effect>, body: seq<Effect>)
    requires forall j :: 0 <= j < |c| ==> !c[j].RequestFrame? && !c[j].Publish?
    requires forall j :: 0 <= j < |body| ==> body[j].RequestFrame? || body[j].Publish?
    ensures var trace := [SetLoading(true)] + c + body + [SetLoading(false)];
            Requests(trace) == Requests(body) && Publishes(trace) == Publishes(body)
            && trace[1..|c| + 1] == c
            && forall j :: |c| + 1 <= j < |trace| ==> !trace[j].DeleteFile? && !trace[j].ClearList?
  {
    var head := [SetLoading(true)] + c;
    var tail := [SetLoading(false)];
    QuietPrefix(head);
    QuietPrefix(tail);
    ProjectionsAppend(head, body);
    ProjectionsAppend(head + body, tail);
    var trace := head + body + tail;
    assert trace[1..|c| + 1] == c;
    forall j | |c| + 1 <= j < |trace|
      ensures !trace[j].DeleteFile? && !trace[j].ClearList?
    {
      if j < |c| + 1 + |body| {
        assert trace[j] == body[j - |c| - 1];
      }
    }
  }

  // ---------------------------------------------------------------------
  // Time label

  /** `formatTime`: whole minutes, a colon, and the remaining seconds as
      two digits. Every label of a non-negative time reads back, in base
      60, as the whole seconds it was made from. */
  function FormatTime(milliseconds: real): (shown: string)
    ensures milliseconds >= 0.0 ==> ParseClock(shown) == (milliseconds / 1000.0).Floor
  {
    var totalSeconds := (milliseconds / 1000.0).Floor;
    var minutes := totalSeconds / 60;
    var seconds := Rem(totalSeconds, 60);
    MinutesAndSeconds(totalSeconds);
    IntToString(minutes) + ":" + PadStart2(IntToString(seconds))
  }

  /** The `m:ss` label of a non-negative number of seconds reads back as it. */
  lemma MinutesAndSeconds(total: int)
    ensures total >= 0 ==> ParseClock(IntToString(total / 60) + ":" + PadStart2(IntToString(Rem(total, 60)))) == total
  {
    if total >= 0 {
      TwoFields(total / 60, total % 60);
    }
  }

  /** For a non-negative time the label is the unpadded whole minutes, a
      colon, and the remaining seconds of `floor(ms / 1000)` as two digits. */
  lemma FormatTimeFields(milliseconds: real)
    requires milliseconds >= 0.0
    ensures var total := (milliseconds / 1000.0).Floor;
            var ss := PadStart2(NatToString(total % 60));
            FormatTime(milliseconds) == NatToString(total / 60) + ":" + ss
            && |ss| == 2 && AllDigits(ss) && ParseNat(ss) == total % 60
  {
    TwoDigits((milliseconds / 1000.0).Floor % 60);
  }
}

=== FILE: types.dfy ===
/** The record shapes of types/video.ts. JavaScript numbers are `int` for
    durations, timestamps and pixel sizes, and `real` where the app stores
    times derived from scrolling. */
module VideoTypes {
  import opened Wrappers
  import opened Js

  /** A source video picked from the gallery or recorded. `error` is set only
      on the picker's rejection sentinel. */
  datatype VideoItem = VideoItem(
    id: string,
    uri: string,
    duration: int,
    filename: string,
    creationTime: Option<int>,
    modificationTime: Option<int>,
    width: Option<nat>,
    height: Option<nat>,
    thumbnail: Option<string>,
    error: Option<string>)

  /** The test `v.id !== videoId` the video lists are filtered by. */
  function OtherVideo(videoId: string): VideoItem -> bool {
    (v: VideoItem) => v.id != videoId
  }

  datatype AspectRatio = Original | Portrait9x16

  /** A saved five-second clip of the video diary. */
  datatype CroppedVideo = CroppedVideo(
    id: string,
    name: string,
    description: string,
    uri: string,
    originalVideoUri: string,
    startTime: real,
    endTime: real,
    duration: real,
    thumbnail: Option<string>,
    width: Option<nat>,
    height: Option<nat>,
    aspectRatio: Option<AspectRatio>,
    isFavorite: Option<bool>,
    createdAt: int,
    updatedAt: int)

  datatype TextOverlay = TextOverlay(
    id: string,
    text: string,
    x: int,
    y: int,
    fontSize: int,
    color: string,
    fontFamily: Option<string>,
    timestamp: int)

  datatype VideoSegment = VideoSegment(id: string, videoId: string, startTime: int, endTime: int)

  /** A filter; `kind` is the filter's name ('grayscale', 'sepia', ...). */
  datatype FilterEffect = FilterEffect(kind: string, intensity: real)

  datatype VideoProject = VideoProject(
    id: string,
    name: string,
    videos: seq<VideoItem>,
    segments: seq<VideoSegment>,
    textOverlays: seq<TextOverlay>,
    filters: seq<FilterEffect>,
    createdAt: int,
    updatedAt: int)

  datatype ExportStatus = Idle | Processing | Completed | Failed

  /** Progress of an export, 0 to 100. */
  datatype ExportProgress = ExportProgress(
    progress: int,
    status: ExportStatus,
    outputUri: Option<string>,
    error: Option<string>)

  /** The export state both stores start from and reset to. */
  const IdleProgress: ExportProgress := ExportProgress(0, Idle, None, None)

  /** A video asset as the platform picker reports it. */
  datatype PickedAsset = PickedAsset(
    uri: string,
    duration: Option<int>,
    fileName: Option<string>,
    width: Option<nat>,
    height: Option<nat>)

  /** The item every import path builds from an asset: the id and the
      fallback file name come from two readings of the clock, a missing or
      zero duration becomes 0, and a missing or empty file name or thumbnail
      is replaced (`x || fallback`). */
  function ItemFromAsset(asset: PickedAsset, thumbnail: Option<string>, clockForId: int, clockForName: int): (v: VideoItem)
    ensures v.uri == asset.uri && v.width == asset.width && v.height == asset.height
    ensures v.duration == asset.duration.GetOr(0)
    ensures v.id == IntToString(clockForId)
    ensures asset.fileName.Some? && asset.fileName.value != "" ==> v.filename == asset.fileName.value
    ensures asset.fileName.None? || asset.fileName.value == ""
            ==> v.filename == "video_" + IntToString(clockForName) + ".mp4"
    ensures v.thumbnail.Some? <==> thumbnail.Some? && thumbnail.value != ""
    ensures v.thumbnail.Some? ==> v.thumbnail == thumbnail
    ensures v.error.None?
  {
    VideoItem(
      IntToString(clockForId),
      asset.uri,
      asset.duration.GetOr(0),
      if asset.fileName.Some? && asset.fileName.value != "" then asset.fileName.value
      else "video_" + IntToString(clockForName) + ".mp4",
      None, None,
      asset.width, asset.height,
      if thumbnail.Some? && thumbnail.value != "" then thumbnail else None,
      None)
  }
}

=== FILE: video_service.dfy ===
/** The validation and asset-processing layer (services/video-service.ts).
    A validator that throws is modelled as returning `Fail` with the error
    it would throw. */
module VideoService {
  import opened Wrappers
  import opened Js
  import opened Errors
  import opened VideoTypes
  import AppConstants
  import Scrubber

  /** What a validator does: return normally, or throw `error`. */
  datatype Check = Pass | Fail(error: Error)

  function AbsReal(x: real): real { if x < 0.0 then -x else x }

  /** `validateVideoDuration`: a source longer than two minutes is rejected
      with its length in seconds and the limit attached; exactly two
      minutes is accepted. */
  function ValidateVideoDuration(durationMs: int, videoUri: Option<string>): (c: Check)
    ensures c.Fail? <==> durationMs > AppConstants.MAX_DURATION_MS
    ensures c.Fail? ==> c.error == VideoValidationError(
              "Video must be 2 minutes or shorter", videoUri,
              Some(durationMs as real / 1000.0), Some(120))
  {
    var durationInSeconds := durationMs as real / 1000.0;
    assert NatToString(AppConstants.MAX_DURATION_SECONDS / 60) == [Digit(2)] == "2";
    assert "Video must be " + "2" + " minutes or shorter" == "Video must be 2 minutes or shorter";
    if durationInSeconds > AppConstants.MAX_DURATION_SECONDS as real then
      Fail(VideoValidationError(
        "Video must be " + IntToString(AppConstants.MAX_DURATION_SECONDS / 60) + " minutes or shorter",
        videoUri, Some(durationInSeconds), Some(AppConstants.MAX_DURATION_SECONDS)))
    else Pass
  }

  /** `validateMinimumDuration`: a source shorter than one clip is rejected;
      exactly five seconds is accepted. */
  function ValidateMinimumDuration(durationMs: int): (c: Check)
    ensures c.Fail? <==> durationMs < AppConstants.CROP_DURATION_MS
    ensures c.Fail? ==> c.error == VideoValidationError("Video must be at least 5 seconds long", None, None, None)
  {
    if durationMs < AppConstants.CROP_DURATION_MS then
      assert NatToString(AppConstants.CROP_DURATION_MS / 1000) == [Digit(5)] == "5";
      assert "Video must be at least " + "5" + " seconds long" == "Video must be at least 5 seconds long";
      Fail(VideoValidationError(
        "Video must be at least " + IntToString(AppConstants.CROP_DURATION_MS / 1000) + " seconds long",
        None, None, None))
    else Pass
  }

  function CropError(message: string): Error {
    VideoValidationError(message, None, None, None)
  }

  /** `validateCropParameters`: the crop must be five seconds give or take
      the tolerance, then lie inside the video, then start before it ends;
      the first failing check decides the message. */
  function ValidateCropParameters(startTime: real, endTime: real, videoDuration: real): (c: Check)
    ensures c.Pass? <==> AbsReal(endTime - startTime - AppConstants.CROP_DURATION_MS as real)
                           <= AppConstants.DURATION_TOLERANCE_MS as real
                         && startTime >= 0.0 && endTime <= videoDuration
    ensures AbsReal(endTime - startTime - 5000.0) > 100.0
            ==> c == Fail(CropError("Crop must be exactly 5 seconds"))
    ensures AbsReal(endTime - startTime - 5000.0) <= 100.0 && (startTime < 0.0 || endTime > videoDuration)
            ==> c == Fail(CropError("Crop times are outside video duration"))
  {
    var cropDuration := endTime - startTime;
    if AbsReal(cropDuration - AppConstants.CROP_DURATION_MS as real) > AppConstants.DURATION_TOLERANCE_MS as real then
      Fail(CropError("Crop must be exactly 5 seconds"))
    else if startTime < 0.0 || endTime > videoDuration then
      Fail(CropError("Crop times are outside video duration"))
    else if startTime >= endTime then
      Fail(CropError("Start time must be before end time"))
    else Pass
  }

  /** Once the length check passes the crop is at least 4.9 s long, so the
      start-before-end check can never be the one that fails. */
  lemma CropOrderingCheckUnreachable(startTime: real, endTime: real, videoDuration: real)
    ensures ValidateCropParameters(startTime, endTime, videoDuration)
            != Fail(CropError("Start time must be before end time"))
  {
  }

  /** Every window the scrubber reports for a source of at least five
      seconds is accepted by the crop check. */
  lemma ScrubberWindowIsValidCrop(scrollPosition: real, duration: int)
    requires duration >= AppConstants.CROP_DURATION_MS
    ensures var u := Scrubber.UpdateTrimFromScroll(scrollPosition, duration, AppConstants.CROP_DURATION_MS);
            ValidateCropParameters(u.startTime, u.endTime, duration as real) == Pass
  {
  }

  /** For a source shorter than five seconds the scrubber's degenerate
      window is rejected as running past the video, whatever the scroll. */
  lemma ShortSourceWindowRejected(scrollPosition: real, duration: int)
    requires duration < AppConstants.CROP_DURATION_MS
    ensures var u := Scrubber.UpdateTrimFromScroll(scrollPosition, duration, AppConstants.CROP_DURATION_MS);
            ValidateCropParameters(u.startTime, u.endTime, duration as real)
              == Fail(CropError("Crop times are outside video duration"))
  {
  }

  /** The two service checks agree on every source: the minimum-duration
      check passes exactly when the scrubber's window for that source is a
      valid crop. */
  lemma MinimumDurationMatchesScrubberWindow(scrollPosition: real, duration: int)
    ensures var u := Scrubber.UpdateTrimFromScroll(scrollPosition, duration, AppConstants.CROP_DURATION_MS);
            ValidateMinimumDuration(duration).Pass?
            <==> ValidateCropParameters(u.startTime, u.endTime, duration as real).Pass?
  {
    if duration >= AppConstants.CROP_DURATION_MS {
      ScrubberWindowIsValidCrop(scrollPosition, duration);
    } else {
      ShortSourceWindowRejected(scrollPosition, duration);
    }
  }

  /** `validateVideoMetadata` (service version): a blank name is reported
      before a blank description; blank means nothing is left after trim. */
  function ValidateVideoMetadata(name: string, description: string): (c: Check)
    ensures c.Pass? <==> !AllWhitespace(name) && !AllWhitespace(description)
    ensures AllWhitespace(name) ==> c == Fail(VideoValidationError("Video name is required", None, None, None))
    ensures !AllWhitespace(name) && AllWhitespace(description)
            ==> c == Fail(VideoValidationError("Video description is required", None, None, None))
  {
    if Trim(name) == "" then Fail(VideoValidationError("Video name is required", None, None, None))
    else if Trim(description) == "" then Fail(VideoValidationError("Video description is required", None, None, None))
    else Pass
  }

  /** What the thumbnail service does for one request: produce an image
      uri, or reject with some thrown value. */
  datatype FrameAnswer = Produced(uri: string) | Rejected(cause: Thrown)

  /** `generateThumbnail` (service version): a rejection is rethrown as a
      thumbnail processing error that keeps the cause when it is an Error. */
  function GenerateThumbnail(answer: FrameAnswer): (r: Result<string, Error>)
    ensures answer.Produced? ==> r == Ok(answer.uri)
    ensures answer.Rejected? ==> (r.Err? && r.error.VideoProcessingError?
              && r.error.operation == ThumbnailOp
              && r.error.message == "Failed to generate video thumbnail"
              && (r.error.originalError.Some? <==> answer.cause.Raised?))
  {
    match answer
    case Produced(uri) => Ok(uri)
    case Rejected(cause) =>
      Err(VideoProcessingError("Failed to generate video thumbnail", ThumbnailOp,
                               if cause.Raised? then Some(cause.error) else None))
  }

  /** `processVideoAsset`: the duration is validated only when present and
      non-zero, before any thumbnail is generated; the item then records
      the duration, or 0 when it was missing. */
  function ProcessVideoAsset(asset: PickedAsset, answer: FrameAnswer, clockForId: int, clockForName: int)
    : (r: Result<VideoItem, Error>)
    ensures asset.duration.Some? && asset.duration.value > AppConstants.MAX_DURATION_MS
            ==> r == Err(ValidateVideoDuration(asset.duration.value, Some(asset.uri)).error)
    ensures (asset.duration.None? || asset.duration.value <= AppConstants.MAX_DURATION_MS)
            ==> (r.Ok? <==> answer.Produced?)
    ensures r.Ok? ==> r.value.duration == asset.duration.GetOr(0) && r.value.uri == asset.uri
    ensures r.Ok? && (asset.duration.None? || asset.duration.value == 0) ==> r.value.duration == 0
  {
    var check := if asset.duration.Some? && asset.duration.value != 0
                 then ValidateVideoDuration(asset.duration.value, Some(asset.uri)) else Pass;
    if check.Fail? then Err(check.error)
    else
      match GenerateThumbnail(answer)
      case Err(e) => Err(e)
      case Ok(uri) => Ok(ItemFromAsset(asset, Some(uri), clockForId, clockForName))
  }
}

=== FILE: video_utils.dfy ===
/** The media helpers of utils/video-utils.ts: the duration label, the
    export quality table and the picker's two-minute rule. */
module VideoUtils {
  import opened Wrappers
  import opened Js
  import opened Clock
  import opened VideoTypes
  import AppConstants
  import Scrubber
  import VideoService

  /** `formatDuration`: `h:mm:ss` from one hour on, `m:ss` below, where the
      input is first truncated to whole seconds. Hours and minutes are
      JavaScript's floor divisions and the remainders are JavaScript's `%`.
      Every label of a non-negative duration reads back, field by field in
      base 60, as the whole seconds it was made from. */
  function FormatDuration(milliseconds: real): (shown: string)
    ensures milliseconds >= 0.0 ==> ParseClock(shown) == WholeSeconds(milliseconds)
  {
    var totalSeconds := (milliseconds / 1000.0).Floor;
    var hours := totalSeconds / 3600;
    var minutes := Rem(totalSeconds, 3600) / 60;
    var seconds := Rem(totalSeconds, 60);
    ClockOfSeconds(totalSeconds);
    if hours > 0 then
      IntToString(hours) + ":" + PadStart2(IntToString(minutes)) + ":" + PadStart2(IntToString(seconds))
    else
      IntToString(minutes) + ":" + PadStart2(IntToString(seconds))
  }

  function WholeSeconds(milliseconds: real): int {
    (milliseconds / 1000.0).Floor
  }

  /** The clock fields of a non-negative number of seconds, computed the
      way the formatter computes them. */
  lemma Fields(total: int)
    requires total >= 0
    ensures Rem(total, 3600) / 60 == total % 3600 / 60 && Rem(total, 60) == total % 60
    ensures total % 3600 / 60 < 60 && total % 60 < 60
    ensures total == 3600 * (total / 3600) + 60 * (total % 3600 / 60) + total % 60
    ensures total < 3600 ==> total / 3600 == 0 && total % 3600 / 60 == total / 60
  {
  }

  /** Both labels of a non-negative number of seconds read back as it; the
      short one is used only below an hour. */
  lemma ClockOfSeconds(total: int)
    ensures total >= 0 ==>
              var h, m, s := total / 3600, Rem(total, 3600) / 60, Rem(total, 60);
              ParseClock(IntToString(h) + ":" + PadStart2(IntToString(m)) + ":" + PadStart2(IntToString(s))) == total
              && (h == 0 ==> ParseClock(IntToString(m) + ":" + PadStart2(IntToString(s))) == total)
  {
    if total >= 0 {
      Fields(total);
      LongClock(total / 3600, total % 3600 / 60, total % 60);
      TwoFields(total % 3600 / 60, total % 60);
    }
  }

  lemma LongClock(h: nat, m: nat, s: nat)
    requires m < 60 && s < 60
    ensures ParseClock(NatToString(h) + ":" + PadStart2(NatToString(m)) + ":" + PadStart2(NatToString(s)))
            == 3600 * h + 60 * m + s
  {
    ThreeFields(h, m, s);
  }

  /** From one hour on the label is `h:mm:ss`: unpadded hours, then the
      minutes and seconds within the hour, each padded to two digits;
      together they decompose the whole seconds as 3600 h + 60 m + s. */
  lemma LongForm(milliseconds: real)
    requires WholeSeconds(milliseconds) >= 3600
    ensures var total := WholeSeconds(milliseconds);
            var h, m, s := total / 3600, total % 3600 / 60, total % 60;
            total == 3600 * h + 60 * m + s && h > 0 && m < 60 && s < 60
            && FormatDuration(milliseconds)
               == NatToString(h) + ":" + PadStart2(NatToString(m)) + ":" + PadStart2(NatToString(s))
  {
    Fields(WholeSeconds(milliseconds));
  }

  /** Below one hour (and not negative) the label is `m:ss` with the
      minutes unpadded and the seconds padded to two digits. */
  lemma ShortForm(milliseconds: real)
    requires 0 <= WholeSeconds(milliseconds) < 3600
    ensures var total := WholeSeconds(milliseconds);
            FormatDuration(milliseconds) == NatToString(total / 60) + ":" + PadStart2(NatToString(total % 60))
            && total / 60 < 60
  {
    Fields(WholeSeconds(milliseconds));
  }

  /** The sub-second part of the input never shows. */
  lemma FormatDurationTruncates(milliseconds: real)
    ensures FormatDuration(milliseconds) == FormatDuration(1000.0 * WholeSeconds(milliseconds) as real)
  {
    var k := WholeSeconds(milliseconds);
    assert (1000.0 * k as real) / 1000.0 == k as real;
  }

  /** Below an hour the duration label is the scrubber's `m:ss` time label. */
  lemma AgreesWithScrubberBelowAnHour(milliseconds: real)
    requires 0 <= WholeSeconds(milliseconds) < 3600
    ensures FormatDuration(milliseconds) == Scrubber.FormatTime(milliseconds)
  {
    Fields(WholeSeconds(milliseconds));
  }

  /** The encoder settings of one export quality. */
  datatype Quality = Quality(width: nat, height: nat, bitrate: nat)

  const Low: Quality := Quality(640, 480, 500000)
  const Medium: Quality := Quality(1280, 720, 2000000)
  const High: Quality := Quality(1920, 1080, 5000000)

  /** `getQualitySettings`: the fixed table, none for 'original' (keep the
      source's settings), and medium for any other name. */
  function QualitySettings(quality: string): (q: Option<Quality>)
    ensures q.None? <==> quality == "original"
    ensures quality == "low" ==> q == Some(Quality(640, 480, 500000))
    ensures quality == "medium" ==> q == Some(Quality(1280, 720, 2000000))
    ensures quality == "high" ==> q == Some(Quality(1920, 1080, 5000000))
    ensures quality != "low" && quality != "high" && quality != "original" ==> q == Some(Medium)
  {
    match quality
    case "low" => Some(Low)
    case "medium" => Some(Medium)
    case "high" => Some(High)
    case "original" => None
    case _ => Some(Medium)
  }

  predicate Below(a: Quality, b: Quality) {
    a.width < b.width && a.height < b.height && a.bitrate < b.bitrate
  }

  /** Width, height and bitrate all strictly increase from low to medium
      to high. */
  lemma QualityLadder()
    ensures Below(QualitySettings("low").value, QualitySettings("medium").value)
    ensures Below(QualitySettings("medium").value, QualitySettings("high").value)
  {
  }

  /** What the image picker hands back. */
  datatype PickerOutcome = Canceled | Chosen(assets: seq<PickedAsset>) | LaunchFailed

  /** The item returned, instead of throwing, for a video over two minutes. */
  const TooLongSentinel: VideoItem :=
    VideoItem("ERROR", "", 0, "VIDEO_TOO_LONG", None, None, None, None, None,
              Some("Video must be 2 minutes or less"))

  /** Whether `(duration || 0) / 1000 > 120`. */
  predicate TooLong(asset: PickedAsset) {
    asset.duration.GetOr(0) as real / 1000.0 > 120.0
  }

  /** `pickVideoFromGallery` and `recordVideo` (their logic is the same):
      nothing when the picker was cancelled, returned no asset or threw; the
      sentinel when the first asset is over two minutes; otherwise the item
      built from it, with the thumbnail service's answer (none on failure). */
  function PickVideo(outcome: PickerOutcome, thumbnail: Option<string>, clockForId: int, clockForName: int)
    : (r: Option<VideoItem>)
    ensures r.None? <==> !(outcome.Chosen? && |outcome.assets| > 0)
    ensures r.Some? ==> (r.value == TooLongSentinel <==> outcome.assets[0].duration.GetOr(0) > AppConstants.MAX_DURATION_MS)
    ensures r.Some? && r.value != TooLongSentinel ==>
              r.value.error.None? && r.value.uri == outcome.assets[0].uri
              && r.value.duration == outcome.assets[0].duration.GetOr(0)
              && r.value.duration <= AppConstants.MAX_DURATION_MS
  {
    if outcome.Chosen? && |outcome.assets| > 0 then
      var asset := outcome.assets[0];
      if TooLong(asset) then Some(TooLongSentinel)
      else Some(ItemFromAsset(asset, thumbnail, clockForId, clockForName))
    else None
  }

  /** The picker and the service agree on the limit: the picker accepts an
      asset exactly when the service's duration check passes on it. */
  lemma PickerAndServiceAgree(asset: PickedAsset, thumbnail: Option<string>, clockForId: int, clockForName: int)
    ensures PickVideo(Chosen([asset]), thumbnail, clockForId, clockForName) != Some(TooLongSentinel)
            <==> VideoService.ValidateVideoDuration(asset.duration.GetOr(0), Some(asset.uri)).Pass?
  {
  }
}

=== FILE: wrappers.dfy ===
/** Failure-compatible helper types shared by the whole model. */
module Wrappers {

  /** A value that may be absent: JavaScript's `undefined` / `null`. */
  datatype Option<+T> = None | Some(value: T) {

    /** Returns the wrapped value, or `default` when absent (`x ?? default`). */
    function GetOr(default: T): T {
      match this
      case Some(v) => v
      case None => default
    }
  }

  /** The outcome of an operation that may throw: a value or the thrown error. */
  datatype Result<+R, +E> = Ok(value: R) | Err(error: E)

  /** The object-spread rule for one field (`{ ...current, ...patch }`): a
      supplied value replaces the current one, an absent one leaves it. */
  predicate Spread<T(==)>(supplied: Option<T>, current: T, merged: T) {
    if supplied.Some? then merged == supplied.value else merged == current
  }

  /** The same rule for a field that is itself optional. */
  predicate SpreadOptional<T(==)>(supplied: Option<T>, current: Option<T>, merged: Option<T>) {
    if supplied.Some? then merged == supplied else merged == current
  }
}
